=== FILE: README.md ===
# Exponential-family priors of beer: natural-vector layouts

This project models the core of `beer/expfamilyprior.py`, the conjugate
priors of the beer Bayesian toolkit. Each prior stores one flat vector of
natural hyper-parameters η. Its expected sufficient statistics are ∇A(η),
where A is the prior's log-normaliser. The model covers:

- How each concrete prior lays out η. The families are Dirichlet,
  Normal-Gamma, joint Normal-Gamma, Normal-Wishart and joint
  Normal-Wishart.
- How `split_sufficient_statistics` cuts η back into its groups.
- The `natural_hparams` setter, which resets the gradient, back-propagates
  A and stores ∇A, and fails where the family's `log_norm` raises a shape
  error.
- `kl_div`, written through the Bregman divergence of A.
- The split helper `_normal_fc_split_nparams` of the full-covariance
  Normal prior.

Vectors are `seq<real>`. Matrices are sequences of rows and are flattened
row-major, as `view(-1)` does. Python slicing is modelled with negative
indices and clamping (`Vectors.Slice`). torch's size errors are the
`Failure` cases of a `Result`:

- a `view` whose element count does not match;
- an unpack of the wrong arity;
- indexing into an empty tensor;
- operands that cannot broadcast.

A and ∇A are not computed. Each prior receives them as a `LogNormalizer`
value, a pair of total functions whose gradient has the shape of its
argument. Where the real log-normaliser is undefined because of shapes is
modelled separately: `ExpFamilyPrior.LogNormError` gives the error each
family's `log_norm` raises when its split or its broadcasting rejects a
vector, and the setter consults the `LogNormalizer` only on vectors it
accepts. What the model does prove is that the algebraic arguments the
log-normalisers pass to `lgamma`, `log` and the log-determinant read back
the standard hyper-parameters the constructor was given.

Modules, one per file:
- `Results`: the error type.
- `Vectors`: element-wise arithmetic, broadcasting, slicing and the inner product.
- `Matrices`: matrices, `Flatten` and `View`.
- `Dirichlet`, `NormalGamma`, `JointNormalGamma`, `NormalWishart`, `JointNormalWishart`: one module per family.
- `NormalFullCovariance`: the split helper.
- `ExpFamilyPrior`: prior state and the setter.
- `Divergence`: the Bregman divergence and `kl_div`.
- `Priors`: the constructors wired to the abstract prior.

## Model

| member | source | states |
|---|---|---|
| Dirichlet.Natural | beer/expfamilyprior.py:163 | the natural vector has one entry per concentration and the log-normaliser's shift by one recovers the concentrations from it |
| Dirichlet.Split | beer/expfamilyprior.py:166-179 | the Dirichlet statistics form one group: the split returns its input unchanged |
| Dirichlet.NaturalLayout | beer/expfamilyprior.py:163 | the natural vector has one entry per concentration, each one less than it |
| Dirichlet.ConcentrationsRoundTrip | beer/expfamilyprior.py:192-193 | adding one to the split natural vector, as the log-normaliser does, gives back the concentrations |
| Dirichlet.NaturalRoundTrip | beer/expfamilyprior.py:163 | every natural vector comes from the concentrations one above it, so the transform is a bijection |
| Dirichlet.Example | beer/expfamilyprior.py:163 | concentrations (2, 3, 5) give the natural vector (1, 2, 4) |
| NormalGamma.Blocks | beer/expfamilyprior.py:234-239 | the blocks exist exactly when scale broadcasts against mean and the result against rate; their lengths are the broadcast lengths, the third block is the scale and the fourth has the shape's length |
| NormalGamma.Natural | beer/expfamilyprior.py:234-239 | construction raises a size error exactly where the blocks do not broadcast; otherwise the vector's length is the sum of the four block lengths |
| NormalGamma.Split | beer/expfamilyprior.py:253 | `view(4, -1)` succeeds exactly on vectors whose length is a multiple of four, the empty vector included, and yields four groups of a quarter of the length |
| NormalGamma.SplitPartition | beer/expfamilyprior.py:253 | the four groups of a successful split concatenate back to the input |
| NormalGamma.SplitConcat | beer/expfamilyprior.py:234-253 | splitting a concatenation of four groups returns them exactly when they are all of one length |
| NormalGamma.BlocksOfEqualLengths | beer/expfamilyprior.py:234-239 | with inputs of one length D the blocks are D long, entry by entry `scale*mean² + 2*rate`, `scale*mean`, `scale` and `2*shape - 1` |
| NormalGamma.NaturalLayout | beer/expfamilyprior.py:234-253 | for inputs of one length D the natural vector has 4·D entries and the split returns the constructed blocks in order |
| NormalGamma.ReadBackRecoversStandard | beer/expfamilyprior.py:266-269 | for non-zero scales, the quantities the log-normaliser reads from the split groups, `np3`, `.5*(np4+1)` and `.5*(np1 - np2²/np3)`, are the scale, the shape and the rate; `np2/np3`, which the log-normaliser does not compute, completes the inverse with the mean |
| NormalGamma.ScalarScaleMisgroups | beer/expfamilyprior.py:234-253 | a one-entry scale that broadcasts against a longer mean produces a vector the split cuts into groups that are not the constructed blocks |
| JointNormalGamma.Blocks | beer/expfamilyprior.py:302-308 | the groups exist exactly when the rate broadcasts against the D column sums; the first has the broadcast length, the second is K×D, the third is the scales and the fourth has the shape's length |
| JointNormalGamma.Natural | beer/expfamilyprior.py:302-308 | construction raises a size error exactly where the rate does not broadcast; otherwise the vector holds the broadcast length plus 2·K·D plus the shape's length |
| JointNormalGamma.BlocksEntries | beer/expfamilyprior.py:302-308 | with a rate of length D the groups are well shaped and entry by entry the column sums plus `2*rate`, the scaled means, the scales and `2*shape - 1` |
| JointNormalGamma.Split | beer/expfamilyprior.py:322-328 | the split succeeds exactly when K·D = 0 or the vector holds at least D + 2·K·D entries, and yields two K×D matrices |
| JointNormalGamma.MiddleSlicesFull | beer/expfamilyprior.py:324-326 | the two K·D slices after the first D entries are both full exactly when they are empty or the vector reaches their end |
| JointNormalGamma.SplitPartition | beer/expfamilyprior.py:322-328 | a successful split loses and repeats nothing: the flattened groups concatenate back to the input |
| JointNormalGamma.SplitConcat | beer/expfamilyprior.py:322-328 | splitting the concatenation of well-shaped groups returns those groups |
| JointNormalGamma.NaturalLayout | beer/expfamilyprior.py:302-328 | with a rate of length D the natural vector has D + 2·K·D entries plus one per shape entry, the split returns the constructed groups, and each group's entries are as the constructor builds them |
| JointNormalGamma.SquareOverCancels | beer/expfamilyprior.py:345 | for non-zero scales, `(scales*means)² / scales` equals `scales * means²` entry by entry |
| JointNormalGamma.Residual | beer/expfamilyprior.py:345-347 | the log-normaliser's `hnp1 - (hnp2s²/hnp3s).sum(0)` is a D-vector; `JointNormalGamma.ReadBackRecoversRateAndShape` states its value |
| JointNormalGamma.ReadBackRecoversRateAndShape | beer/expfamilyprior.py:341-347 | for non-zero scales, the log-normaliser's `hnp1 - (hnp2s²/hnp3s).sum(0)` on the split groups is `2*rate`, `.5*(hnp4+1)` is the shape and `hnp3s` are the scales |
| NormalWishart.Split | beer/expfamilyprior.py:406-409 | the split succeeds exactly on vectors of at least D² and at least two entries; the unpack of `s[-2:]` fails on anything shorter |
| NormalWishart.SplitPartition | beer/expfamilyprior.py:406-409 | a successful split reproduces its input exactly when the input has at least D² + 2 entries |
| NormalWishart.ShortInputOverlaps | beer/expfamilyprior.py:406-409 | with D = 1 the two-entry vector (3, 4) splits successfully, and the first scalar repeats the matrix's only entry |
| NormalWishart.SplitConcat | beer/expfamilyprior.py:395-409 | splitting the concatenation of a D×D matrix, a D-vector and two scalars returns them |
| NormalWishart.Blocks | beer/expfamilyprior.py:385-392 | the groups are a D×D matrix and a D-vector, and the last scalar plus D is the degrees of freedom |
| NormalWishart.Natural | beer/expfamilyprior.py:385-392 | the natural vector has D² + D + 2 entries, so the split with `dim = D` accepts it |
| NormalWishart.BlocksEntries | beer/expfamilyprior.py:385-392 | the constructed groups are entry by entry `scale*mean[i]*mean[j] + inv_scale[i][j]`, `scale*mean[i]`, `scale` and `dof - D` |
| NormalWishart.NaturalLayout | beer/expfamilyprior.py:385-409 | the natural vector has D² + D + 2 entries and the split with `dim = D` returns the constructed groups |
| NormalWishart.Residual | beer/expfamilyprior.py:427 | `hnp1 - ger(hnp2, hnp2)/hnp3` is a D×D matrix; `NormalWishart.ReadBackRecoversWishart` states its value |
| NormalWishart.ReadBackRecoversWishart | beer/expfamilyprior.py:422-427 | for a non-zero scale, `hnp1 - ger(hnp2, hnp2)/hnp3` on the split groups is the inverse scale matrix, `hnp3` is the scale and `hnp4 + D` the degrees of freedom |
| JointNormalWishart.Split | beer/expfamilyprior.py:485-490 | a successful split yields a D×D matrix, a K×D matrix and at most K scales |
| JointNormalWishart.SplitSucceedsIff | beer/expfamilyprior.py:485-490 | when K·D > 0 the split succeeds exactly on vectors of D² + K·D + K + 1 entries |
| JointNormalWishart.NoComponentsOverlap | beer/expfamilyprior.py:485-490 | with K = 0 and D = 1 the split accepts the one-entry vector (5), one short of the family's length, and reads the scalar from the matrix's only entry, so the groups do not concatenate back to the input |
| ExpFamilyPrior.NormalWishartShortMiddleAccepted | beer/expfamilyprior.py:406-427 | with D = 2 the split accepts the 7-entry vector (1, …, 7), one short of D² + D + 2, taking (5) as the middle group; that one entry broadcasts in `log_norm`'s outer product, so the family's log-normaliser reports no error |
| JointNormalWishart.SplitPartition | beer/expfamilyprior.py:485-490 | on a vector of that length the split succeeds and its groups concatenate back to the input |
| JointNormalWishart.SplitConcat | beer/expfamilyprior.py:474-490 | splitting the concatenation of well-shaped groups returns those groups |
| JointNormalWishart.OuterSum | beer/expfamilyprior.py:464-467 | `mmT` is a D×D matrix; `JointNormalWishart.QuadSumCancels` states its value |
| JointNormalWishart.Blocks | beer/expfamilyprior.py:464-471 | the groups are well shaped for K components of dimension D, the third is the scales and the last plus D is the degrees of freedom |
| JointNormalWishart.Natural | beer/expfamilyprior.py:464-471 | the natural vector has D² + K·D + K + 1 entries |
| JointNormalWishart.BlocksEntries | beer/expfamilyprior.py:464-471 | the constructed groups are `mmT + inv_scale`, the means scaled row by row, the scales and `dof - D` |
| JointNormalWishart.NaturalLayout | beer/expfamilyprior.py:462-490 | the natural vector has D² + K·D + K + 1 entries and the split with the recorded K and D returns the constructed groups |
| JointNormalWishart.QuadSumCancels | beer/expfamilyprior.py:507-508 | for non-zero scales, `quad_exp` over the scaled means equals the constructor's `mmT` |
| JointNormalWishart.QuadSum | beer/expfamilyprior.py:507-508 | `quad_exp` is a D×D matrix; `JointNormalWishart.QuadSumCancels` states its value on constructed groups |
| JointNormalWishart.Residual | beer/expfamilyprior.py:509 | `hnp1 - quad_exp` is a D×D matrix; `JointNormalWishart.ReadBackRecoversWishart` states its value |
| JointNormalWishart.ReadBackRecoversWishart | beer/expfamilyprior.py:503-509 | for non-zero scales, `hnp1 - quad_exp` on the split groups is the inverse scale matrix and `grp4 + D` the degrees of freedom |
| NormalFullCovariance.DimOf | beer/expfamilyprior.py:541 | the recovered dimension is the largest D with D² + D ≤ n |
| NormalFullCovariance.DimUnique | beer/expfamilyprior.py:539-541 | D² + D brackets n for exactly one D, so the root solves the polynomial on every length D² + D |
| NormalFullCovariance.SplitNaturalParams | beer/expfamilyprior.py:534-544 | the helper returns a D×D matrix, the entries after the first D² and D, with D² + D at most the input length |
| NormalFullCovariance.SplitPartition | beer/expfamilyprior.py:542-543 | the flattened matrix followed by the rest is the input |
| NormalFullCovariance.SplitRecoversDim | beer/expfamilyprior.py:534-544 | on a vector of D² + D entries the helper returns D, the first D² entries as a D×D matrix and the last D entries |
| NormalFullCovariance.SplitConcat | beer/expfamilyprior.py:534-544 | splitting a flattened D×D matrix followed by a D-vector returns the matrix, the vector and D |
| Matrices.FlattenView | beer/expfamilyprior.py:327-328 | viewing a flat vector as rows×cols and flattening again gives the vector back |
| Matrices.ViewFlatten | beer/expfamilyprior.py:304-306 | flattening a rows×cols matrix and viewing it with the same shape gives the matrix back |
| Vectors.Bound | beer/expfamilyprior.py:485-490 | a Python slice bound is clamped into the sequence, and a negative one counts from the end |
| Vectors.SliceLength | beer/expfamilyprior.py:322-326 | a slice with non-negative bounds `lo ≤ hi` has `hi - lo` entries when it ends inside the sequence, is cut at the end otherwise, and is empty past it |
| Vectors.Broadcast | beer/expfamilyprior.py:234-236 | two one-dimensional operands combine exactly when their lengths agree or one is 1; the result has the longer length and a length-1 operand repeats its entry |
| Vectors.DotSub | beer/expfamilyprior.py:12 | the inner product distributes over the difference of equal-length vectors |
| ExpFamilyPrior.StatisticsAreGradient | beer/expfamilyprior.py:80-94 | on a consistent prior the statistics getter returns ∇A at what the natural-parameter getter returns, read from the tensor's gradient buffer and of the same length |
| ExpFamilyPrior.LogNormError | beer/expfamilyprior.py:100 | `log_norm(value)` raises exactly where the family's split fails or its broadcasting does: never for Dirichlet, off multiples of four for Normal-Gamma, where `hnp1` does not broadcast against D or `hnp4` against the result for joint Normal-Gamma, where `hnp2` does not broadcast against D for Normal-Wishart and where `hnp3s` does not broadcast against K for joint Normal-Wishart |
| ExpFamilyPrior.ZeroGrad | beer/expfamilyprior.py:98-99 | zeroing keeps the data and replaces an existing gradient with zeros of its length |
| ExpFamilyPrior.Backward | beer/expfamilyprior.py:101-102 | back-propagation succeeds exactly on tensors that record gradients, and adds ∇A into the existing buffer or creates it |
| ExpFamilyPrior.SetNatural | beer/expfamilyprior.py:96-103 | the setter succeeds exactly on values that the family's `log_norm` accepts and that record gradients; a value `log_norm` rejects fails with that error, one without a gradient graph with the back-propagation error; on success it keeps the family, stores the value, and stores exactly ∇A at the value as the statistics, consistent with the gradient buffer |
| ExpFamilyPrior.Construct | beer/expfamilyprior.py:75-78 | construction succeeds exactly when the family's `log_norm` accepts the natural vector and otherwise fails with its error; a new prior exposes the given natural vector and ∇A at it as statistics, and is consistent |
| ExpFamilyPrior.SetNaturalAsWritten | beer/expfamilyprior.py:96-103 | the setter as written raises on any value that already has a gradient and otherwise behaves exactly as the intended setter |
| ExpFamilyPrior.ReassignIsIdempotent | beer/expfamilyprior.py:96-103 | assigning a consistent prior's own stored tensor again leaves the prior unchanged |
| ExpFamilyPrior.BackwardWithoutResetDoubles | beer/expfamilyprior.py:98-102 | without the reset, back-propagating into the stored tensor again would store 2·∇A |
| ExpFamilyPrior.AsWrittenAgreesWithoutGradient | beer/expfamilyprior.py:96-103 | on a value with no gradient yet, which every constructor passes, the setter as written equals the intended one |
| ExpFamilyPrior.AsWrittenRejectsReassignment | beer/expfamilyprior.py:98-99 | the setter as written fails on a consistent prior's own stored tensor, where the intended one succeeds and changes nothing |
| Divergence.Bregman | beer/expfamilyprior.py:11-12 | the divergence is defined exactly when the points broadcast and the gradient has the broadcast length, and raises a size error otherwise |
| Divergence.BregmanExpanded | beer/expfamilyprior.py:11-12 | on equal-length vectors the divergence is `f1 - f2 - (⟨g, v1⟩ - ⟨g, v2⟩)` |
| Divergence.BregmanSelfIsZero | beer/expfamilyprior.py:11-12 | equal values at equal points diverge by zero |
| Divergence.BregmanOfAffineIsZero | beer/expfamilyprior.py:11-12 | an affine function with its own gradient has zero divergence between any two points |
| Divergence.ExactGapIsZero | beer/expfamilyprior.py:11-12 | where the value gap equals the gradient's inner product with the step, the divergence is zero |
| Divergence.KlDiv | beer/expfamilyprior.py:520-527 | the intended `kl_div` is defined exactly when the natural vectors broadcast and the first prior's statistics have the broadcast length |
| Divergence.KlDivIsBregmanOfLogNorm | beer/expfamilyprior.py:520-527 | for a consistent first prior, the divergence is the Bregman divergence of A between the natural vectors, linearised at the first with ∇A |
| Divergence.KlDivSelfIsZero | beer/expfamilyprior.py:520-527 | a consistent prior has divergence zero from itself |
| Divergence.KlDivAsWritten | beer/expfamilyprior.py:525-527 | `kl_div` as written raises on every pair of priors |
| Divergence.KlDivAsWrittenFailsOnSelf | beer/expfamilyprior.py:525-527 | `kl_div` as written fails even on a prior compared with itself, where the intended one returns zero |
| Priors.DirichletPrior | beer/expfamilyprior.py:157-164 | the Dirichlet prior is consistent, its natural vector reads back the concentrations, and it has one statistic per concentration |
| Priors.NormalGammaPrior | beer/expfamilyprior.py:225-240 | construction fails with a size error where the constructor's arithmetic does not broadcast, with a view error where the vector built is not a multiple of four long, and succeeds otherwise; the prior is consistent and stores the constructed natural vector |
| Priors.NormalGammaPriorRejectsMixedLengths | beer/expfamilyprior.py:234-253 | a mean and rate of length 2 with a one-entry scale and shape build a 6-entry vector, so construction fails at the setter's `view(4, -1)` |
| Priors.NormalGammaPriorSplits | beer/expfamilyprior.py:234-253 | for inputs of one length D the natural vector splits into the constructed blocks, and the statistics split into four D-groups that cover them |
| Priors.JointNormalGammaPrior | beer/expfamilyprior.py:293-309 | construction fails with a size error where the rate does not broadcast, succeeds exactly when also the family's `log_norm` accepts the vector built, and the prior records K and D, is consistent and stores the constructed natural vector |
| Priors.JointNormalGammaPriorAccepts | beer/expfamilyprior.py:302-347 | with a rate of length D, construction succeeds exactly when the shape has 1 or D entries, and otherwise fails with a size error from `log_norm` |
| Priors.JointNormalGammaPriorRejectsShape | beer/expfamilyprior.py:341-347 | one component in two dimensions with a three-entry shape is refused with a size error |
| Priors.JointNormalGammaPriorSplits | beer/expfamilyprior.py:302-328 | for a shape of 1 or D entries, the split with the recorded K and D returns the constructed groups from the natural vector and partitions the statistics |
| Priors.NormalWishartPrior | beer/expfamilyprior.py:376-393 | construction always succeeds, since the vector built passes `log_norm`'s split and outer product; the prior records D, the length of the mean, is consistent and stores the constructed natural vector |
| Priors.NormalWishartPriorSplits | beer/expfamilyprior.py:385-409 | the split with the recorded D returns the constructed groups from the natural vector and partitions the statistics |
| Priors.JointNormalWishartPrior | beer/expfamilyprior.py:453-472 | construction always succeeds, since the vector built passes `log_norm`'s split and broadcasting; the prior records K and D, is consistent and stores the constructed natural vector |
| Priors.JointNormalWishartPriorSplits | beer/expfamilyprior.py:462-490 | the split with the recorded K and D returns the constructed groups from the natural vector and partitions the statistics |

## Left out

- The log-normaliser bodies (`lgamma`, `log`, sums) and `_logdet`, with its Cholesky factorisation and gradient-symmetrising hook: these are floating-point numerics. A and ∇A enter as a `LogNormalizer` parameter. The algebraic arguments the bodies pass to those functions are modelled by the read-back lemmas.
- Automatic differentiation itself: `Backward` adds a supplied ∇A into the gradient buffer. ∇A is assumed to have the shape of its argument and to be defined wherever `ExpFamilyPrior.LogNormError` finds no shape error.
- `torch.inverse(scale_matrix)` in the Wishart constructors: the inverse scale matrix is an input of the model.
- Cholesky failure (including on an empty matrix when D = 0) and NaN results for non-positive-definite matrices or non-positive arguments to `log`, since floating-point results are not modelled. `ExpFamilyPrior.LogNormError` only covers the shape errors of `log_norm`.
- The rounding of `math.sqrt` in `_normal_fc_split_nparams`: the dimension is computed with an exact integer square root.
- `_normal_fc_log_norm` (`beer/expfamilyprior.py:547-550`): it is a log-normaliser body, left out like the others.
- The factory functions `NormalFullCovariancePrior`, `NormalIsotropicCovariancePrior`, `MatrixNormalPrior` and `GammaPrior`, with `_normal_iso_split_nparams`, `_matrixnormal_fc_split_nparams`, `_normal_iso_log_norm` and `_matrixnormal_fc_log_norm` (`beer/expfamilyprior.py:553-673`). Their `return` statements (lines 569, 578, 585, 604, 614, 622, 646 and 673) are commented out, so they return `None` and promise nothing.
- `_gamma_log_norm` (`beer/expfamilyprior.py:655-657`): its `return` is live, but it is a log-normaliser body, left out like the others.
- `beer/cli/subcommands/hshmm/__init__.py`: it only wires command-line arguments to other code.
- ExpFamilyPrior.SetNatural: the assigned value is modelled as a leaf tensor. A non-leaf value, computed from another tensor that records gradients, leaves `value.grad` None after `ta.backward`; the source then stores None as the statistics, and the statistics getter raises. The model has no non-leaf tensors, so it stores ∇A for every value that records gradients.
- Tensor dtypes, `.type(...)` casts and the detaching `.data` views. The read-only views return the stored vectors.
- The aliasing between the stored statistics and the tensor's gradient buffer: the model stores a copy. `Consistent` states that the two are equal after every assignment.
- NormalGamma.Natural: broadcasting is modelled for one-dimensional operands only.
- JointNormalGamma.Natural: it requires K×D means and scales. Broadcasting of a lower-dimensional `scales` against `means` is not modelled; only `rate` broadcasts against the D column sums.
- NormalWishart.Natural: it requires a D×D inverse scale matrix rather than modelling torch's error for other shapes.
- JointNormalWishart.Natural: it requires K×D means, K scales and a D×D inverse scale matrix rather than modelling torch's errors for other shapes.
- The splits follow the code where the documentation suggests that an input of the wrong length is refused. Four cases accept such an input:
  - the Normal-Gamma split accepts any multiple of four, zero included;
  - the joint Normal-Gamma split takes any tail as its last group;
  - the Normal-Wishart split takes whatever lies between the matrix and the two scalars as its middle group, which may have any length, so it accepts every input of at least D² + 2 entries; it also reads its scalars from the matrix's entries when the input has fewer than D² + 2 entries (`NormalWishart.ShortInputOverlaps`). The family's `log_norm` accepts a middle group of 1 or D entries, or of any length when D = 1, so construction and assignment go through for such vectors (`ExpFamilyPrior.NormalWishartShortMiddleAccepted`);
  - the joint Normal-Wishart split, when K·D = 0, accepts inputs other than D² + K·D + K + 1 entries long, and may read its last scalar from the matrix (`JointNormalWishart.NoComponentsOverlap`). The family's `log_norm` accepts such a vector too, so construction and assignment go through.

## Findings

| source | as written | input that shows it | evidently intended | confidence | as-written member | corrected member |
|---|---|---|---|---|---|---|
| beer/expfamilyprior.py:98-99 | `value.grad.zero_()()` calls the tensor that `zero_()` returns, which raises | assigning a prior's own stored tensor, which already carries a gradient | zero the gradient buffer, then back-propagate and store ∇A | high, not executed | ExpFamilyPrior.SetNaturalAsWritten (shown by ExpFamilyPrior.AsWrittenRejectsReassignment) | ExpFamilyPrior.SetNatural (ExpFamilyPrior.ReassignIsIdempotent) |
| beer/expfamilyprior.py:525-527 | `kl_div` passes the bound `log_norm` methods where values are expected and reads `natural_params`, an attribute no prior defines | `kl_div(p, p)` for any prior `p` | A(η2) - A(η1) - ⟨∇A(η1), η2 - η1⟩ with the stored natural vectors | high, not executed | Divergence.KlDivAsWritten (shown by Divergence.KlDivAsWrittenFailsOnSelf) | Divergence.KlDiv (Divergence.KlDivIsBregmanOfLogNorm, Divergence.KlDivSelfIsZero) |

=== FILE: dirichlet.dfy ===
/** The Dirichlet prior over a probability vector: its natural
    hyper-parameters are the concentrations shifted by one, and its
    sufficient statistics form a single group. */
module Dirichlet {
  import opened Vectors

  /** The constructor's natural vector: `concentrations - 1`. The
      log-normaliser's shift by one undoes it. */
  function Natural(concentrations: Vector): (eta: Vector)
    ensures |eta| == |concentrations|
    ensures Concentrations(eta) == concentrations
  {
    var eta := Affine(1.0, concentrations, -1.0);
    assert forall i :: 0 <= i < |eta| ==> Concentrations(eta)[i] == concentrations[i];
    eta
  }

  /** The concentrations the log-normaliser feeds to `lgamma`: `natural_hparams + 1`. */
  function Concentrations(eta: Vector): Vector
  {
    Affine(1.0, eta, 1.0)
  }

  /** `split_sufficient_statistics`: one group, the statistics themselves. */
  function Split(s: Vector): (r: Vector)
    ensures r == s
  {
    s
  }

  /** The natural vector has one entry per concentration, each lowered by one. */
  lemma NaturalLayout(concentrations: Vector)
    ensures |Natural(concentrations)| == |concentrations|
    ensures forall i :: 0 <= i < |concentrations| ==> Natural(concentrations)[i] == concentrations[i] - 1.0
  {
  }

  /** Splitting the natural vector and shifting it back recovers the concentrations. */
  lemma ConcentrationsRoundTrip(concentrations: Vector)
    ensures Concentrations(Split(Natural(concentrations))) == concentrations
  {
    var r := Concentrations(Split(Natural(concentrations)));
    assert forall i :: 0 <= i < |r| ==> r[i] == concentrations[i];
  }

  /** Every natural vector is the image of some concentrations. */
  lemma NaturalRoundTrip(eta: Vector)
    ensures Natural(Concentrations(eta)) == eta
  {
    var r := Natural(Concentrations(eta));
    assert forall i :: 0 <= i < |r| ==> r[i] == eta[i];
  }

  /** Concentrations (2, 3, 5) give the natural vector (1, 2, 4). */
  lemma Example()
    ensures Natural([2.0, 3.0, 5.0]) == [1.0, 2.0, 4.0]
  {
    assert Natural([2.0, 3.0, 5.0])[0] == 1.0;
  }
}

=== FILE: divergence.dfy ===
/** The Kullback-Leibler divergence between two priors of one family,
    through the Bregman-divergence identity of the log-normaliser:
    KL(p1 ‖ p2) = A(η2) - A(η1) - ⟨∇A(η1), η2 - η1⟩. */
module Divergence {
  import opened Results
  import opened Vectors
  import opened ExpFamilyPrior

  /** `_bregman_divergence(f_val1, f_val2, grad_f_val2, val1, val2)`:
      `f_val1 - f_val2 - grad_f_val2 @ (val1 - val2)`. The difference
      broadcasts and the inner product needs equal lengths; torch raises
      otherwise. */
  function Bregman(fVal1: real, fVal2: real, gradFVal2: Vector, val1: Vector, val2: Vector): (r: Result<real>)
    ensures r.Success? <==> Broadcastable(|val1|, |val2|) && |gradFVal2| == BroadcastLength(|val1|, |val2|)
    ensures r.Failure? ==> r.error == ShapeMismatch
  {
    match Broadcast(Minus, val1, val2)
    case None => Failure(ShapeMismatch)
    case Some(diff) =>
      if |gradFVal2| != |diff| then Failure(ShapeMismatch)
      else Success(fVal1 - fVal2 - Dot(gradFVal2, diff))
  }

  /** On vectors of one length the divergence is the value gap minus the
      inner product's difference: `f1 - f2 - (⟨g, v1⟩ - ⟨g, v2⟩)`. */
  lemma BregmanExpanded(f1: real, f2: real, g: Vector, v1: Vector, v2: Vector)
    requires |g| == |v1| == |v2|
    ensures Bregman(f1, f2, g, v1, v2) == Success(f1 - f2 - (Dot(g, v1) - Dot(g, v2)))
  {
    BroadcastSameLength(Minus, v1, v2);
    assert Broadcast(Minus, v1, v2).value == Sub(v1, v2);
    DotSub(g, v1, v2);
  }

  /** Equal values at equal points diverge by zero. */
  lemma BregmanSelfIsZero(f: real, g: Vector, v: Vector)
    requires |g| == |v|
    ensures Bregman(f, f, g, v, v) == Success(0.0)
  {
    BregmanExpanded(f, f, g, v, v);
  }

  /** An affine function `c + ⟨w, v⟩` with gradient `w` has zero
      divergence between any two points: its first-order expansion is exact. */
  lemma BregmanOfAffineIsZero(c: real, w: Vector, v1: Vector, v2: Vector)
    requires |w| == |v1| == |v2|
    ensures Bregman(AffineValue(c, w, v1), AffineValue(c, w, v2), w, v1, v2) == Success(0.0)
  {
    ExactGapIsZero(AffineValue(c, w, v1), AffineValue(c, w, v2), w, v1, v2);
  }

  /** The affine function `c + ⟨w, v⟩`. */
  function AffineValue(c: real, w: Vector, v: Vector): real
    requires |w| == |v|
  {
    c + Dot(w, v)
  }

  /** Where the value gap equals the gradient's inner product with the
      step, the divergence is zero. */
  lemma ExactGapIsZero(f1: real, f2: real, g: Vector, v1: Vector, v2: Vector)
    requires |g| == |v1| == |v2|
    requires f1 - f2 == Dot(g, v1) - Dot(g, v2)
    ensures Bregman(f1, f2, g, v1, v2) == Success(0.0)
  {
    BregmanExpanded(f1, f2, g, v1, v2);
  }

  /** `kl_div(model1, model2)` as intended: the second model's
      log-normaliser at its natural vector, the first's at its own, the
      first's expected statistics, and the two natural vectors. */
  function KlDiv(a1: LogNormalizer, a2: LogNormalizer, p1: Prior, p2: Prior): (r: Result<real>)
    ensures r.Success? <==>
      && Broadcastable(|NaturalHparams(p2)|, |NaturalHparams(p1)|)
      && |ExpectedSufficientStatistics(p1)| == BroadcastLength(|NaturalHparams(p2)|, |NaturalHparams(p1)|)
  {
    var eta1, eta2 := NaturalHparams(p1), NaturalHparams(p2);
    Bregman(a2.value(eta2), a1.value(eta1), ExpectedSufficientStatistics(p1), eta2, eta1)
  }

  /** For a consistent first prior and natural vectors of one length, the
      divergence is the Bregman divergence of A between the two natural
      vectors, linearised at the first. */
  lemma KlDivIsBregmanOfLogNorm(a1: LogNormalizer, a2: LogNormalizer, p1: Prior, p2: Prior)
    requires Differentiable(a1) && Consistent(p1, a1)
    requires |NaturalHparams(p1)| == |NaturalHparams(p2)|
    ensures var eta1, eta2 := NaturalHparams(p1), NaturalHparams(p2);
      KlDiv(a1, a2, p1, p2)
        == Success(a2.value(eta2) - a1.value(eta1)
                   - (Dot(a1.gradient(eta1), eta2) - Dot(a1.gradient(eta1), eta1)))
  {
    var eta1, eta2 := NaturalHparams(p1), NaturalHparams(p2);
    assert |a1.gradient(eta1)| == |eta1|;
    BregmanExpanded(a2.value(eta2), a1.value(eta1), p1.expected, eta2, eta1);
  }

  /** A consistent prior has divergence zero from itself. */
  lemma KlDivSelfIsZero(a: LogNormalizer, p: Prior)
    requires Differentiable(a) && Consistent(p, a)
    ensures KlDiv(a, a, p, p) == Success(0.0)
  {
    assert |a.gradient(p.natural.data)| == |p.natural.data|;
    BregmanSelfIsZero(a.value(NaturalHparams(p)), p.expected, NaturalHparams(p));
  }

  /** `kl_div` as written: it passes the bound `log_norm` methods where
      values are expected and then reads `model2.natural_params`, an
      attribute no prior has, so it raises before any arithmetic. */
  function KlDivAsWritten(p1: Prior, p2: Prior): (r: Result<real>)
    ensures r.Failure?
  {
    Failure(MissingAttribute)
  }

  /** Even a prior compared with itself gets no divergence from the written
      `kl_div`, where the intended one returns zero. */
  lemma KlDivAsWrittenFailsOnSelf(a: LogNormalizer, p: Prior)
    requires Differentiable(a) && Consistent(p, a)
    ensures KlDivAsWritten(p, p).Failure?
    ensures KlDiv(a, a, p, p) == Success(0.0)
  {
    KlDivSelfIsZero(a, p);
  }
}

=== FILE: exp_family_prior.dfy ===
/** The abstract exponential-family prior. Its state is a natural
    hyper-parameter tensor and the expected sufficient statistics, which
    are the gradient of the family's log-normaliser A at that tensor.
    Assigning a new natural tensor resets the tensor's accumulated
    gradient, back-propagates A at the new value and stores the result.
    A and its gradient are not computed here: they are supplied as a
    `LogNormalizer`. What is modelled is where A is undefined: every
    family's `log_norm` first splits its argument and then combines the
    groups under broadcasting, and a shape error there makes the
    assignment fail. */
module ExpFamilyPrior {
  import opened Results
  import opened Vectors
  import NormalGamma
  import JointNormalGamma
  import NormalWishart
  import JointNormalWishart

  /** A one-dimensional leaf tensor as autograd sees it: its data, whether
      it records gradients, and the gradient accumulated in it so far. */
  datatype Tensor = Tensor(data: Vector, requiresGrad: bool, grad: Option<Vector>)

  /** A gradient buffer always has the shape of its tensor. */
  predicate WellFormed(t: Tensor)
  {
    t.grad.Some? ==> |t.grad.value| == |t.data|
  }

  /** A family's log-normaliser A(η) and its gradient ∇A(η). */
  datatype LogNormalizer = LogNormalizer(value: Vector -> real, gradient: Vector -> Vector)

  /** The gradient of A has the shape of its argument. */
  ghost predicate Differentiable(a: LogNormalizer)
  {
    forall v :: |a.gradient(v)| == |v|
  }

  /** The concrete family of a prior, with the sizes it records at
      construction. */
  datatype Family =
    | DirichletFamily
    | NormalGammaFamily
    | JointNormalGammaFamily(ncomp: nat, dim: nat)
    | NormalWishartFamily(dim: nat)
    | JointNormalWishartFamily(ncomp: nat, dim: nat)

  /** The shape error the family's `log_norm` raises on a natural vector,
      or `None` where it is defined. Every `log_norm` starts with the
      family's split. The joint Normal-Gamma one then subtracts the D column
      sums from `hnp1` and multiplies by `hnp4 + 1`; the Normal-Wishart one
      subtracts a |hnp2|×|hnp2| outer product from the D×D `hnp1`; the joint
      Normal-Wishart one divides the K stacked outer products by `hnp3s`
      along the component axis. Each of these broadcasts. The Dirichlet and
      Normal-Gamma ones only combine groups of one length. */
  function LogNormError(family: Family, v: Vector): (e: Option<Error>)
    ensures family == DirichletFamily ==> e.None?
    ensures family == NormalGammaFamily ==> (e.None? <==> |v| % 4 == 0)
    ensures family.JointNormalGammaFamily? ==>
      (e.None? <==> && JointNormalGamma.Split(family.ncomp, family.dim, v).Success?
                    && var g := JointNormalGamma.Split(family.ncomp, family.dim, v).value;
                    && Broadcastable(|g.hnp1|, family.dim)
                    && Broadcastable(|g.hnp4|, BroadcastLength(|g.hnp1|, family.dim)))
    ensures family.NormalWishartFamily? ==>
      (e.None? <==> NormalWishart.Split(family.dim, v).Success?
                    && Broadcastable(family.dim, |NormalWishart.Split(family.dim, v).value.hnp2|))
    ensures family.JointNormalWishartFamily? ==>
      (e.None? <==> JointNormalWishart.Split(family.ncomp, family.dim, v).Success?
                    && Broadcastable(family.ncomp, |JointNormalWishart.Split(family.ncomp, family.dim, v).value.grp3s|))
  {
    match family
    case DirichletFamily => None
    case NormalGammaFamily =>
      (match NormalGamma.Split(v)
       case Failure(err) => Some(err)
       case Success(_) => None)
    case JointNormalGammaFamily(ncomp, dim) =>
      (match JointNormalGamma.Split(ncomp, dim, v)
       case Failure(err) => Some(err)
       case Success(g) =>
         if Broadcastable(|g.hnp1|, dim) && Broadcastable(|g.hnp4|, BroadcastLength(|g.hnp1|, dim)) then None
         else Some(ShapeMismatch))
    case NormalWishartFamily(dim) =>
      (match NormalWishart.Split(dim, v)
       case Failure(err) => Some(err)
       case Success(g) => if Broadcastable(dim, |g.hnp2|) then None else Some(ShapeMismatch))
    case JointNormalWishartFamily(ncomp, dim) =>
      match JointNormalWishart.Split(ncomp, dim, v)
      case Failure(err) => Some(err)
      case Success(g) => if Broadcastable(ncomp, |g.grp3s|) then None else Some(ShapeMismatch)
  }

  /** The Normal-Wishart split takes whatever lies between the matrix and
      the two scalars as `hnp2`, and `log_norm`'s outer product broadcasts
      a one-entry `hnp2` against the D×D matrix. So with D = 2 a vector of
      7 entries, one short of D² + D + 2, is accepted. */
  lemma NormalWishartShortMiddleAccepted()
    ensures var s := [1.0, 2.0, 3.0, 4.0, 5.0, 6.0, 7.0];
      && |s| != 2 * 2 + 2 + 2
      && NormalWishart.Split(2, s).Success?
      && NormalWishart.Split(2, s).value.hnp2 == [5.0]
      && LogNormError(NormalWishartFamily(2), s).None?
  {
    var s := [1.0, 2.0, 3.0, 4.0, 5.0, 6.0, 7.0];
    assert Slice(s, 4, -2) == [5.0];
    assert Slice(s, -2, |s|) == [6.0, 7.0];
    var r := NormalWishart.Split(2, s);
    assert r.Success?;
    assert r.value.hnp2 == [5.0];
  }

  /** The state of a prior: its family, the stored natural tensor and the
      stored expected sufficient statistics. */
  datatype Prior = Prior(family: Family, natural: Tensor, expected: Vector)

  /** The read-only `natural_hparams` view: the data, detached from the graph. */
  function NaturalHparams(p: Prior): Vector
  {
    p.natural.data
  }

  /** The read-only `expected_sufficient_statistics` view. */
  function ExpectedSufficientStatistics(p: Prior): Vector
  {
    p.expected
  }

  /** The invariant every assignment establishes: the family's `log_norm`
      is defined at the stored natural vector, the stored tensor records
      gradients, its gradient buffer holds the stored statistics, and those
      are ∇A at the stored natural vector. */
  ghost predicate Consistent(p: Prior, a: LogNormalizer)
  {
    && LogNormError(p.family, p.natural.data).None?
    && p.natural.requiresGrad
    && p.natural.grad == Some(p.expected)
    && p.expected == a.gradient(p.natural.data)
  }

  /** `value.grad.zero_()`: an existing gradient buffer is filled with zeros. */
  function ZeroGrad(t: Tensor): (r: Tensor)
    ensures r.data == t.data && r.requiresGrad == t.requiresGrad
    ensures WellFormed(t) ==> WellFormed(r)
    ensures t.grad.None? ==> r == t
    ensures t.grad.Some? ==> r.grad == Some(Zeros(|t.grad.value|))
  {
    match t.grad
    case None => t
    case Some(g) => t.(grad := Some(Zeros(|g|)))
  }

  /** `ta.backward(log_norm(value))`: ∇A at the data is added into the
      gradient buffer, or becomes the buffer when there is none yet.
      Back-propagating from a tensor that records no gradients fails. */
  function Backward(t: Tensor, a: LogNormalizer): (r: Result<Tensor>)
    requires WellFormed(t) && Differentiable(a)
    ensures r.Success? <==> t.requiresGrad
    ensures r.Success? ==> r.value.data == t.data && r.value.requiresGrad && WellFormed(r.value)
    ensures r.Success? && t.grad.None? ==> r.value.grad == Some(a.gradient(t.data))
    ensures r.Success? && t.grad.Some? ==> r.value.grad == Some(Add(t.grad.value, a.gradient(t.data)))
  {
    if !t.requiresGrad then Failure(NoGradientGraph)
    else
      var g := a.gradient(t.data);
      match t.grad
      case None => Success(t.(grad := Some(g)))
      case Some(acc) => Success(t.(grad := Some(Add(acc, g))))
  }

  lemma AddZeros(g: Vector)
    ensures Add(Zeros(|g|), g) == g
  {
    var r := Add(Zeros(|g|), g);
    assert forall i :: 0 <= i < |g| ==> r[i] == g[i];
  }

  /** The `natural_hparams` setter as intended: reset the gradient buffer,
      evaluate A at the new value, back-propagate, store the value and its
      gradient. A value the family's `log_norm` cannot split or broadcast is
      refused with that error, and one that records no gradients is refused
      by the back-propagation. Otherwise the stored statistics are ∇A at
      exactly the assigned value and the family is untouched. */
  function SetNatural(p: Prior, value: Tensor, a: LogNormalizer): (r: Result<Prior>)
    requires WellFormed(value) && Differentiable(a)
    ensures r.Success? <==> LogNormError(p.family, value.data).None? && value.requiresGrad
    ensures LogNormError(p.family, value.data).Some? ==> r == Failure(LogNormError(p.family, value.data).value)
    ensures LogNormError(p.family, value.data).None? && !value.requiresGrad ==> r == Failure(NoGradientGraph)
    ensures r.Success? ==> r.value.family == p.family
    ensures r.Success? ==> r.value.natural.data == value.data
    ensures r.Success? ==> r.value.expected == a.gradient(value.data)
    ensures r.Success? ==> Consistent(r.value, a)
  {
    var zeroed := ZeroGrad(value);
    match LogNormError(p.family, value.data)
    case Some(e) => Failure(e)
    case None =>
    match Backward(zeroed, a)
    case Failure(e) => Failure(e)
    case Success(t) =>
      assert t.grad == Some(a.gradient(value.data)) by {
        if value.grad.Some? { AddZeros(a.gradient(value.data)); }
      }
      Success(Prior(p.family, t, t.grad.value))
  }

  /** The setter as written: `value.grad.zero_()()` calls the zeroed
      tensor that `zero_()` returns, which raises as soon as the value
      already carries a gradient. Otherwise it proceeds like `SetNatural`. */
  function SetNaturalAsWritten(p: Prior, value: Tensor, a: LogNormalizer): (r: Result<Prior>)
    requires WellFormed(value) && Differentiable(a)
    ensures value.grad.Some? ==> r == Failure(NotCallable)
    ensures value.grad.None? ==> r == SetNatural(p, value, a)
  {
    if value.grad.Some? then Failure(NotCallable)
    else
      match LogNormError(p.family, value.data)
      case Some(e) => Failure(e)
      case None =>
      match Backward(value, a)
      case Failure(e) => Failure(e)
      case Success(t) => Success(Prior(p.family, t, t.grad.value))
  }

  /** `__init__`: the constructors hand over a fresh tensor that records
      gradients and has no gradient yet, and the setter populates the
      statistics immediately; it raises where the family's `log_norm`
      rejects the vector. */
  function Construct(family: Family, eta: Vector, a: LogNormalizer): (r: Result<Prior>)
    requires Differentiable(a)
    ensures r.Success? <==> LogNormError(family, eta).None?
    ensures r.Failure? ==> r.error == LogNormError(family, eta).value
    ensures r.Success? ==> r.value.family == family
    ensures r.Success? ==> NaturalHparams(r.value) == eta
    ensures r.Success? ==> ExpectedSufficientStatistics(r.value) == a.gradient(eta)
    ensures r.Success? ==> Consistent(r.value, a)
  {
    var initial := Tensor(eta, true, None);
    SetNatural(Prior(family, initial, []), initial, a)
  }

  /** The getters of a consistent prior: the statistics are ∇A at the
      natural hyper-parameters, read from the natural tensor's gradient
      buffer, and have their shape. */
  lemma StatisticsAreGradient(p: Prior, a: LogNormalizer)
    requires Consistent(p, a) && Differentiable(a)
    ensures ExpectedSufficientStatistics(p) == a.gradient(NaturalHparams(p))
    ensures p.natural.grad == Some(ExpectedSufficientStatistics(p))
    ensures |ExpectedSufficientStatistics(p)| == |NaturalHparams(p)|
  {
  }

  /** Reassigning the stored tensor of a consistent prior leaves the prior
      as it was: the reset keeps the old gradient from being counted twice. */
  lemma ReassignIsIdempotent(p: Prior, a: LogNormalizer)
    requires Consistent(p, a) && Differentiable(a)
    ensures WellFormed(p.natural)
    ensures SetNatural(p, p.natural, a) == Success(p)
  {
  }

  /** Without the reset, back-propagating into the stored tensor again would
      add the gradient to itself: the statistics would read 2·∇A. */
  lemma BackwardWithoutResetDoubles(p: Prior, a: LogNormalizer)
    requires Consistent(p, a) && Differentiable(a)
    ensures WellFormed(p.natural)
    ensures Backward(p.natural, a).Success?
    ensures Backward(p.natural, a).value.grad == Some(Add(p.expected, p.expected))
  {
  }

  /** On a tensor without a gradient the written setter and the intended
      one agree; this covers every construction. */
  lemma AsWrittenAgreesWithoutGradient(p: Prior, value: Tensor, a: LogNormalizer)
    requires WellFormed(value) && Differentiable(a)
    requires value.grad.None?
    ensures SetNaturalAsWritten(p, value, a) == SetNatural(p, value, a)
  {
  }

  /** Assigning a consistent prior's own stored tensor again fails as
      written, where the intended setter succeeds and changes nothing. */
  lemma AsWrittenRejectsReassignment(p: Prior, a: LogNormalizer)
    requires Consistent(p, a) && Differentiable(a)
    ensures WellFormed(p.natural)
    ensures SetNaturalAsWritten(p, p.natural, a) == Failure(NotCallable)
    ensures SetNatural(p, p.natural, a) == Success(p)
  {
    ReassignIsIdempotent(p, a);
  }
}

=== FILE: joint_normal_gamma.dfy ===
/** The joint Normal-Gamma prior over K mean vectors of dimension D that
    share one diagonal precision. The natural vector is a D-block, two
    K×D matrices flattened row-major and a final shape block; the split
    cuts it with offsets computed from the recorded `ncomp` (K) and `dim` (D). */
module JointNormalGamma {
  import opened Results
  import opened Vectors
  import opened Matrices

  /** The four groups of a natural vector, in construction order. */
  datatype Groups = Groups(hnp1: Vector, hnp2s: Matrix, hnp3s: Matrix, hnp4: Vector)

  ghost predicate WellShaped(g: Groups, ncomp: nat, dim: nat)
  {
    |g.hnp1| == dim && IsMatrix(g.hnp2s, ncomp, dim) && IsMatrix(g.hnp3s, ncomp, dim)
  }

  /** `torch.cat` of the groups, matrices flattened row-major. */
  function Concat(g: Groups): Vector
  {
    g.hnp1 + Flatten(g.hnp2s) + Flatten(g.hnp3s) + g.hnp4
  }

  /** `(scales * means**2).sum(dim=0)`: for each dimension, the scaled
      squared means summed over the components. */
  function WeightedSquares(means: Matrix, scales: Matrix, ncomp: nat, dim: nat): (r: Vector)
    requires IsMatrix(means, ncomp, dim) && IsMatrix(scales, ncomp, dim)
    ensures |r| == dim
  {
    ColumnSums(Hadamard(scales, Hadamard(means, means)), dim)
  }

  /** The groups the constructor builds: `(scales * means**2).sum(0) + 2 * rate`
      (broadcasting `rate` against the D sums), `scales * means`, `scales`
      and `2 * shape - 1`; `None` where torch raises a size error. */
  function Blocks(means: Matrix, scales: Matrix, shape: Vector, rate: Vector, ncomp: nat, dim: nat): (r: Option<Groups>)
    requires IsMatrix(means, ncomp, dim) && IsMatrix(scales, ncomp, dim)
    ensures r.Some? <==> Broadcastable(dim, |rate|)
    ensures r.Some? ==>
      && |r.value.hnp1| == BroadcastLength(dim, |rate|)
      && IsMatrix(r.value.hnp2s, ncomp, dim)
      && r.value.hnp3s == scales
      && |r.value.hnp4| == |shape|
  {
    match Broadcast(Plus, WeightedSquares(means, scales, ncomp, dim), Scale(2.0, rate))
    case None => None
    case Some(b1) => Some(Groups(b1, Hadamard(scales, means), scales, Affine(2.0, shape, -1.0)))
  }

  /** The constructor's natural vector; `ncomp, dim = means.size()`.
      torch raises a size error exactly where `rate` does not broadcast
      against the D sums. */
  function Natural(means: Matrix, scales: Matrix, shape: Vector, rate: Vector, ncomp: nat, dim: nat): (r: Result<Vector>)
    requires IsMatrix(means, ncomp, dim) && IsMatrix(scales, ncomp, dim)
    ensures r.Success? <==> Broadcastable(dim, |rate|)
    ensures r.Failure? ==> r.error == ShapeMismatch
    ensures r.Success? ==> |r.value| == BroadcastLength(dim, |rate|) + 2 * (ncomp * dim) + |shape|
  {
    match Blocks(means, scales, shape, rate, ncomp, dim)
    case None => Failure(ShapeMismatch)
    case Some(g) =>
      FlattenLength(g.hnp2s, ncomp, dim);
      FlattenLength(g.hnp3s, ncomp, dim);
      Success(Concat(g))
  }

  /** `split_sufficient_statistics`: slices at D, D+K·D and D+2·K·D (Python
      slices, clamped at the end), the middle two viewed as K×D. A view
      fails when its slice was cut short. */
  function Split(ncomp: nat, dim: nat, s: Vector): (r: Result<Groups>)
    ensures r.Success? <==> ncomp * dim == 0 || |s| >= dim + 2 * (ncomp * dim)
    ensures r.Success? ==> IsMatrix(r.value.hnp2s, ncomp, dim) && IsMatrix(r.value.hnp3s, ncomp, dim)
  {
    var kd := ncomp * dim;
    var hnp1 := Slice(s, 0, dim);
    var hnp2s := Slice(s, dim, dim + kd);
    var hnp3s := Slice(s, dim + kd, dim + 2 * kd);
    var hnp4 := Slice(s, dim + 2 * kd, |s|);
    MiddleSlicesFull(s, dim, kd);
    if |hnp2s| != kd || |hnp3s| != kd then Failure(ViewSizeMismatch)
    else Success(Groups(hnp1, View(hnp2s, ncomp, dim), View(hnp3s, ncomp, dim), hnp4))
  }

  /** The two middle slices of `s`, each `kd` long from offset `dim`, are
      both full exactly when `s` reaches their end or they are empty. */
  lemma MiddleSlicesFull(s: Vector, dim: nat, kd: nat)
    ensures |Slice(s, dim, dim + kd)| == kd && |Slice(s, dim + kd, dim + 2 * kd)| == kd
        <==> kd == 0 || |s| >= dim + 2 * kd
  {
    SliceLength(s, dim, dim + kd);
    SliceLength(s, dim + kd, dim + 2 * kd);
  }

  /** The pieces of a successful split cover the vector: re-flattened and
      concatenated they reproduce it exactly. */
  lemma SplitPartition(ncomp: nat, dim: nat, s: Vector)
    requires Split(ncomp, dim, s).Success?
    ensures Concat(Split(ncomp, dim, s).value) == s
  {
    var kd := ncomp * dim;
    FlattenView(Slice(s, dim, dim + kd), ncomp, dim);
    FlattenView(Slice(s, dim + kd, dim + 2 * kd), ncomp, dim);
    FourPieces(s, dim, dim + kd, dim + 2 * kd);
  }

  /** Splitting the concatenation of well-shaped groups returns those groups. */
  lemma SplitConcat(g: Groups, ncomp: nat, dim: nat)
    requires WellShaped(g, ncomp, dim)
    ensures Split(ncomp, dim, Concat(g)) == Success(g)
  {
    var kd := ncomp * dim;
    var f2, f3 := Flatten(g.hnp2s), Flatten(g.hnp3s);
    ViewFlatten(g.hnp2s, ncomp, dim);
    ViewFlatten(g.hnp3s, ncomp, dim);
    assert |f2| == kd && |f3| == kd;
    SlicesInOrder(g.hnp1, f2, f3, g.hnp4);
    assert Concat(g) == g.hnp1 + f2 + f3 + g.hnp4;
  }

  /** With `rate` of length D the natural vector is laid out as
      D ++ K·D ++ K·D ++ |shape|, and the split returns the constructed
      groups: the scaled means and the scales as K×D matrices, entry
      (k, j) of the first being `scales[k][j] * means[k][j]`. */
  lemma NaturalLayout(means: Matrix, scales: Matrix, shape: Vector, rate: Vector, ncomp: nat, dim: nat)
    requires IsMatrix(means, ncomp, dim) && IsMatrix(scales, ncomp, dim)
    requires |rate| == dim
    ensures Blocks(means, scales, shape, rate, ncomp, dim).Some?
    ensures Natural(means, scales, shape, rate, ncomp, dim).Success?
    ensures |Natural(means, scales, shape, rate, ncomp, dim).value| == dim + 2 * (ncomp * dim) + |shape|
    ensures Split(ncomp, dim, Natural(means, scales, shape, rate, ncomp, dim).value)
         == Success(Blocks(means, scales, shape, rate, ncomp, dim).value)
    ensures var g := Blocks(means, scales, shape, rate, ncomp, dim).value;
      && g.hnp3s == scales
      && IsMatrix(g.hnp2s, ncomp, dim)
      && (forall k, j :: 0 <= k < ncomp && 0 <= j < dim ==> g.hnp2s[k][j] == scales[k][j] * means[k][j])
      && (forall j :: 0 <= j < dim ==> g.hnp1[j] == WeightedSquares(means, scales, ncomp, dim)[j] + 2.0 * rate[j])
      && g.hnp4 == Affine(2.0, shape, -1.0)
  {
    BlocksEntries(means, scales, shape, rate, ncomp, dim);
    SplitConcat(Blocks(means, scales, shape, rate, ncomp, dim).value, ncomp, dim);
  }

  /** With `rate` of length D the constructed groups are well shaped and
      hold, entry by entry, the column sums plus `2 * rate`, the scaled
      means, the scales and `2 * shape - 1`. */
  lemma BlocksEntries(means: Matrix, scales: Matrix, shape: Vector, rate: Vector, ncomp: nat, dim: nat)
    requires IsMatrix(means, ncomp, dim) && IsMatrix(scales, ncomp, dim)
    requires |rate| == dim
    ensures Blocks(means, scales, shape, rate, ncomp, dim).Some?
    ensures var g := Blocks(means, scales, shape, rate, ncomp, dim).value;
      && WellShaped(g, ncomp, dim)
      && g.hnp3s == scales
      && (forall k, j :: 0 <= k < ncomp && 0 <= j < dim ==> g.hnp2s[k][j] == scales[k][j] * means[k][j])
      && (forall j :: 0 <= j < dim ==> g.hnp1[j] == WeightedSquares(means, scales, ncomp, dim)[j] + 2.0 * rate[j])
      && g.hnp4 == Affine(2.0, shape, -1.0)
  {
    BroadcastSameLength(Plus, WeightedSquares(means, scales, ncomp, dim), Scale(2.0, rate));
  }

  /** What the log-normaliser computes inside its last logarithm (times
      two): `hnp1 - (hnp2s**2 / hnp3s).sum(dim=0)`, one entry per dimension. */
  function Residual(g: Groups, dim: nat): (r: Vector)
    requires |g.hnp1| == dim && SameShape(g.hnp2s, g.hnp3s)
    requires forall k :: 0 <= k < |g.hnp2s| ==> |g.hnp2s[k]| == dim
    requires forall k, j :: 0 <= k < |g.hnp3s| && 0 <= j < |g.hnp3s[k]| ==> g.hnp3s[k][j] != 0.0
    ensures |r| == dim
  {
    Sub(g.hnp1, ColumnSums(SquareOver(g.hnp2s, g.hnp3s), dim))
  }

  /** Removing the squared scaled means cancels the scaled squares the
      constructor added. */
  lemma SquareOverCancels(means: Matrix, scales: Matrix, ncomp: nat, dim: nat)
    requires IsMatrix(means, ncomp, dim) && IsMatrix(scales, ncomp, dim)
    requires forall k, j :: 0 <= k < ncomp && 0 <= j < dim ==> scales[k][j] != 0.0
    ensures SquareOver(Hadamard(scales, means), scales) == Hadamard(scales, Hadamard(means, means))
  {
    var a := SquareOver(Hadamard(scales, means), scales);
    var b := Hadamard(scales, Hadamard(means, means));
    forall k | 0 <= k < ncomp
      ensures a[k] == b[k]
    {
      forall j | 0 <= j < dim
        ensures a[k][j] == b[k][j]
      {
        var sc, m := scales[k][j], means[k][j];
        var x := Hadamard(scales, means)[k][j];
        assert x == sc * m;
        assert a[k][j] == x * x / sc;
        assert b[k][j] == sc * (m * m);
        CancelOuter(sc, m, m, x, x);
      }
    }
  }

  /** For non-zero scales, the residual of the constructed groups is
      `2 * rate` and `.5 * (hnp4 + 1)` is the shape. */
  lemma ReadBackOfBlocks(means: Matrix, scales: Matrix, shape: Vector, rate: Vector, ncomp: nat, dim: nat)
    requires IsMatrix(means, ncomp, dim) && IsMatrix(scales, ncomp, dim)
    requires |rate| == dim
    requires forall k, j :: 0 <= k < ncomp && 0 <= j < dim ==> scales[k][j] != 0.0
    ensures Blocks(means, scales, shape, rate, ncomp, dim).Some?
    ensures var g := Blocks(means, scales, shape, rate, ncomp, dim).value;
      && WellShaped(g, ncomp, dim)
      && g.hnp3s == scales
      && Residual(g, dim) == Scale(2.0, rate)
      && Affine(0.5, g.hnp4, 0.5) == shape
  {
    var w := WeightedSquares(means, scales, ncomp, dim);
    BroadcastSameLength(Plus, w, Scale(2.0, rate));
    var g := Blocks(means, scales, shape, rate, ncomp, dim).value;
    assert WellShaped(g, ncomp, dim);
    SquareOverCancels(means, scales, ncomp, dim);
    assert ColumnSums(SquareOver(g.hnp2s, g.hnp3s), dim) == w;
    var r := Residual(g, dim);
    forall j | 0 <= j < dim
      ensures r[j] == 2.0 * rate[j]
    {
      assert g.hnp1[j] == w[j] + 2.0 * rate[j];
    }
    var h := Affine(0.5, g.hnp4, 0.5);
    assert forall i :: 0 <= i < |shape| ==> h[i] == shape[i];
  }

  /** The log-normaliser reads back the standard hyper-parameters from the
      split natural vector: for non-zero scales the residual is `2 * rate`
      and `.5 * (hnp4 + 1)` is the shape. */
  lemma ReadBackRecoversRateAndShape(means: Matrix, scales: Matrix, shape: Vector, rate: Vector, ncomp: nat, dim: nat)
    requires IsMatrix(means, ncomp, dim) && IsMatrix(scales, ncomp, dim)
    requires |rate| == dim
    requires forall k, j :: 0 <= k < ncomp && 0 <= j < dim ==> scales[k][j] != 0.0
    ensures Natural(means, scales, shape, rate, ncomp, dim).Success?
    ensures var s := Natural(means, scales, shape, rate, ncomp, dim).value;
      && Split(ncomp, dim, s).Success?
      && var g := Split(ncomp, dim, s).value;
      && WellShaped(g, ncomp, dim)
      && g.hnp3s == scales
      && Residual(g, dim) == Scale(2.0, rate)
      && Affine(0.5, g.hnp4, 0.5) == shape
  {
    NaturalLayout(means, scales, shape, rate, ncomp, dim);
    ReadBackOfBlocks(means, scales, shape, rate, ncomp, dim);
  }
}

=== FILE: joint_normal_wishart.dfy ===
/** The joint Normal-Wishart prior over K mean vectors of dimension D that
    share one full precision matrix. Its natural vector is a D×D matrix and
    a K×D matrix, both flattened row-major, the K scales and one scalar;
    the split takes the matrix from the front and the rest with negative
    offsets from the end. */
module JointNormalWishart {
  import opened Results
  import opened Vectors
  import opened Matrices

  /** The four groups of a natural vector, in construction order. */
  datatype Groups = Groups(grp1: Matrix, grp2s: Matrix, grp3s: Vector, grp4: real)

  ghost predicate WellShaped(g: Groups, ncomp: nat, dim: nat)
  {
    IsMatrix(g.grp1, dim, dim) && IsMatrix(g.grp2s, ncomp, dim) && |g.grp3s| == ncomp
  }

  /** Length of a natural vector for K components of dimension D. */
  function Size(ncomp: nat, dim: nat): nat
  {
    dim * dim + ncomp * dim + ncomp + 1
  }

  /** `torch.cat` of the groups, matrices flattened row-major. */
  function Concat(g: Groups): Vector
  {
    Flatten(g.grp1) + Flatten(g.grp2s) + g.grp3s + [g.grp4]
  }

  /** `scales.view(-1, 1) * means`: row k of the means scaled by `scales[k]`. */
  function ScaledMeans(means: Matrix, scales: Vector): (m: Matrix)
    requires |scales| == |means|
    ensures SameShape(m, means)
    ensures forall k, j :: 0 <= k < |m| && 0 <= j < |m[k]| ==> m[k][j] == scales[k] * means[k][j]
  {
    seq(|means|, k requires 0 <= k < |means| => Scale(scales[k], means[k]))
  }

  /** `mmT`: the sum over components of the outer product of `means[k]`
      with `scales[k] * means[k]`. */
  function OuterSum(means: Matrix, scales: Vector, dim: nat): (m: Matrix)
    requires |scales| == |means|
    requires forall k :: 0 <= k < |means| ==> |means[k]| == dim
    ensures IsMatrix(m, dim, dim)
    decreases |means|
  {
    if |means| == 0 then ZeroMatrix(dim, dim)
    else MatrixAdd(Outer(means[0], Scale(scales[0], means[0])), OuterSum(means[1..], scales[1..], dim))
  }

  /** One component's term of `quad_exp`: `x xᵀ / c`. */
  function OuterOver(x: Vector, c: real): (m: Matrix)
    requires c != 0.0
    ensures IsMatrix(m, |x|, |x|)
    ensures forall i, j {:trigger m[i][j]} :: 0 <= i < |x| && 0 <= j < |x| ==> m[i][j] == x[i] * x[j] / c
  {
    seq(|x|, i requires 0 <= i < |x| => seq(|x|, j requires 0 <= j < |x| => x[i] * x[j] / c))
  }

  /** `quad_exp`: the sum over components of `hnp2s[k] hnp2s[k]ᵀ / hnp3s[k]`. */
  function QuadSum(rows: Matrix, weights: Vector, dim: nat): (m: Matrix)
    requires |weights| == |rows|
    requires forall k :: 0 <= k < |rows| ==> |rows[k]| == dim && weights[k] != 0.0
    ensures IsMatrix(m, dim, dim)
    decreases |rows|
  {
    if |rows| == 0 then ZeroMatrix(dim, dim)
    else MatrixAdd(OuterOver(rows[0], weights[0]), QuadSum(rows[1..], weights[1..], dim))
  }

  /** The groups the constructor builds: `mmT + inv_scale`, the scaled
      means, the scales and `dof - D`. */
  function Blocks(means: Matrix, scales: Vector, invScale: Matrix, dof: real, ncomp: nat, dim: nat): (g: Groups)
    requires IsMatrix(means, ncomp, dim) && |scales| == ncomp && IsMatrix(invScale, dim, dim)
    ensures WellShaped(g, ncomp, dim)
    ensures g.grp3s == scales
    ensures g.grp4 + dim as real == dof
  {
    Groups(
      MatrixAdd(OuterSum(means, scales, dim), invScale),
      ScaledMeans(means, scales),
      scales,
      dof - dim as real)
  }

  /** The constructor's natural vector; `ncomp, dim = means.size()`. It
      holds D² + K·D + K + 1 entries. */
  function Natural(means: Matrix, scales: Vector, invScale: Matrix, dof: real, ncomp: nat, dim: nat): (eta: Vector)
    requires IsMatrix(means, ncomp, dim) && |scales| == ncomp && IsMatrix(invScale, dim, dim)
    ensures |eta| == Size(ncomp, dim)
  {
    var g := Blocks(means, scales, invScale, dof, ncomp, dim);
    FlattenLength(g.grp1, dim, dim);
    FlattenLength(g.grp2s, ncomp, dim);
    Concat(g)
  }

  /** `split_sufficient_statistics`: `s[:D²]` viewed as D×D,
      `s[D²:-(K+1)]` viewed as K×D, `s[-(K+1):-1]` and `s[-1]`. A view
      fails when its slice has the wrong size; indexing fails on an empty
      vector. */
  function Split(ncomp: nat, dim: nat, s: Vector): (r: Result<Groups>)
    ensures r.Success? ==> IsMatrix(r.value.grp1, dim, dim) && IsMatrix(r.value.grp2s, ncomp, dim)
    ensures r.Success? ==> |r.value.grp3s| <= ncomp
  {
    var sq := dim * dim;
    var grp1 := Slice(s, 0, sq);
    var grp2s := Slice(s, sq, -(ncomp + 1));
    var grp3s := Slice(s, -(ncomp + 1), -1);
    if |grp1| != sq then Failure(ViewSizeMismatch)
    else if |grp2s| != ncomp * dim then Failure(ViewSizeMismatch)
    else if |s| == 0 then Failure(IndexOutOfRange)
    else Success(Groups(View(grp1, dim, dim), View(grp2s, ncomp, dim), grp3s, s[|s| - 1]))
  }

  /** With at least one component of positive dimension, the split succeeds
      exactly on vectors of length D² + K·D + K + 1. */
  lemma SplitSucceedsIff(ncomp: nat, dim: nat, s: Vector)
    requires ncomp * dim > 0
    ensures Split(ncomp, dim, s).Success? <==> |s| == Size(ncomp, dim)
  {
    var sq, kd, n := dim * dim, ncomp * dim, |s|;
    if n == Size(ncomp, dim) {
      assert |Slice(s, 0, sq)| == sq;
      assert Bound(-(ncomp + 1), n) == sq + kd;
      assert |Slice(s, sq, -(ncomp + 1))| == kd;
    }
  }

  /** Without components (K = 0, D = 1) the split also accepts a vector one
      entry shorter than the family's length: the scalar `s[-1]` is the
      matrix's only entry again, and the groups do not concatenate back to
      the input. */
  lemma NoComponentsOverlap()
    ensures Size(0, 1) == 2
    ensures Split(0, 1, [5.0]) == Success(Groups([[5.0]], [], [], 5.0))
    ensures Concat(Split(0, 1, [5.0]).value) != [5.0]
  {
    var s := [5.0];
    assert Slice(s, 0, 1) == s;
    assert s[..1] == s && s[1..] == [];
    assert View(s, 1, 1) == [s[..1]] + View(s[1..], 0, 1);
    assert Slice(s, 1, -1) == [];
    assert Slice(s, -1, -1) == [];
    var r := Split(0, 1, s);
    assert r.Success?;
    assert r.value.grp1 == [[5.0]];
    assert r.value.grp2s == [];
    assert r.value.grp3s == [];
    assert r.value.grp4 == 5.0;
    assert Flatten([[5.0]]) == [5.0] + Flatten([]);
  }

  /** On a vector of the family's length the four pieces cover every
      index exactly once: re-flattened and concatenated they reproduce it. */
  lemma SplitPartition(ncomp: nat, dim: nat, s: Vector)
    requires |s| == Size(ncomp, dim)
    ensures Split(ncomp, dim, s).Success?
    ensures Concat(Split(ncomp, dim, s).value) == s
  {
    var sq, kd, n := dim * dim, ncomp * dim, |s|;
    var a, b, c := Slice(s, 0, sq), Slice(s, sq, -(ncomp + 1)), Slice(s, -(ncomp + 1), -1);
    assert a == s[..sq];
    assert b == s[sq..sq + kd];
    assert c == s[sq + kd..n - 1];
    FlattenView(a, dim, dim);
    FlattenView(b, ncomp, dim);
    assert s == s[..sq] + s[sq..sq + kd] + s[sq + kd..n - 1] + [s[n - 1]];
  }

  /** Splitting the concatenation of well-shaped groups returns those groups. */
  lemma SplitConcat(g: Groups, ncomp: nat, dim: nat)
    requires WellShaped(g, ncomp, dim)
    ensures |Concat(g)| == Size(ncomp, dim)
    ensures Split(ncomp, dim, Concat(g)) == Success(g)
  {
    var sq, kd := dim * dim, ncomp * dim;
    ViewFlatten(g.grp1, dim, dim);
    ViewFlatten(g.grp2s, ncomp, dim);
    var a, b := Flatten(g.grp1), Flatten(g.grp2s);
    assert |a| == sq && |b| == kd;
    SlicesFromBothEnds(a, b, g.grp3s, g.grp4);
    assert Concat(g) == a + b + g.grp3s + [g.grp4];
  }

  /** The constructor's groups are well shaped: the scaled means are
      `scales[k] * means[k][j]`, then the scales and `dof - D`. */
  lemma BlocksEntries(means: Matrix, scales: Vector, invScale: Matrix, dof: real, ncomp: nat, dim: nat)
    requires IsMatrix(means, ncomp, dim) && |scales| == ncomp && IsMatrix(invScale, dim, dim)
    ensures var g := Blocks(means, scales, invScale, dof, ncomp, dim);
      && WellShaped(g, ncomp, dim)
      && g.grp1 == MatrixAdd(OuterSum(means, scales, dim), invScale)
      && (forall k, j :: 0 <= k < ncomp && 0 <= j < dim ==> g.grp2s[k][j] == scales[k] * means[k][j])
      && g.grp3s == scales
      && g.grp4 == dof - dim as real
  {
  }

  /** The natural vector has length D² + K·D + K + 1 and the split returns
      exactly the constructed groups. */
  lemma NaturalLayout(means: Matrix, scales: Vector, invScale: Matrix, dof: real, ncomp: nat, dim: nat)
    requires IsMatrix(means, ncomp, dim) && |scales| == ncomp && IsMatrix(invScale, dim, dim)
    ensures |Natural(means, scales, invScale, dof, ncomp, dim)| == Size(ncomp, dim)
    ensures Split(ncomp, dim, Natural(means, scales, invScale, dof, ncomp, dim))
         == Success(Blocks(means, scales, invScale, dof, ncomp, dim))
  {
    BlocksEntries(means, scales, invScale, dof, ncomp, dim);
    SplitConcat(Blocks(means, scales, invScale, dof, ncomp, dim), ncomp, dim);
  }

  /** Subtracting the quadratic term of the scaled means divided by the
      scales cancels the weighted outer products the constructor added. */
  lemma {:induction false} QuadSumCancels(means: Matrix, scales: Vector, dim: nat)
    requires |scales| == |means|
    requires forall k :: 0 <= k < |means| ==> |means[k]| == dim && scales[k] != 0.0
    ensures QuadSum(ScaledMeans(means, scales), scales, dim) == OuterSum(means, scales, dim)
    decreases |means|
  {
    if |means| > 0 {
      var h := ScaledMeans(means, scales);
      assert h[1..] == ScaledMeans(means[1..], scales[1..]);
      QuadSumCancels(means[1..], scales[1..], dim);
      assert h[0] == Scale(scales[0], means[0]);
      HeadCancels(means[0], scales[0]);
    }
  }

  /** One component's term: `(s·m)(s·m)ᵀ / s = m (s·m)ᵀ`. */
  lemma HeadCancels(m: Vector, s: real)
    requires s != 0.0
    ensures OuterOver(Scale(s, m), s) == Outer(m, Scale(s, m))
  {
    var lhs, rhs := OuterOver(Scale(s, m), s), Outer(m, Scale(s, m));
    forall i | 0 <= i < |m|
      ensures lhs[i] == rhs[i]
    {
      forall j | 0 <= j < |m|
        ensures lhs[i][j] == rhs[i][j]
      {
        HeadEntry(m, s, i, j);
      }
    }
  }

  lemma HeadEntry(m: Vector, s: real, i: nat, j: nat)
    requires s != 0.0 && i < |m| && j < |m|
    ensures OuterOver(Scale(s, m), s)[i][j] == Outer(m, Scale(s, m))[i][j]
  {
    var x := Scale(s, m);
    CancelOuter(s, m[i], m[j], x[i], x[j]);
  }

  /** What the log-normaliser passes to the log-determinant: `hnp1 - quad_exp`. */
  function Residual(g: Groups, dim: nat): (m: Matrix)
    requires IsMatrix(g.grp1, dim, dim) && |g.grp3s| == |g.grp2s|
    requires forall k :: 0 <= k < |g.grp2s| ==> |g.grp2s[k]| == dim && g.grp3s[k] != 0.0
    ensures IsMatrix(m, dim, dim)
  {
    MatrixSub(g.grp1, QuadSum(g.grp2s, g.grp3s, dim))
  }

  lemma ResidualOfBlocks(means: Matrix, scales: Vector, invScale: Matrix, dof: real, ncomp: nat, dim: nat)
    requires IsMatrix(means, ncomp, dim) && |scales| == ncomp && IsMatrix(invScale, dim, dim)
    requires forall k :: 0 <= k < ncomp ==> scales[k] != 0.0
    ensures WellShaped(Blocks(means, scales, invScale, dof, ncomp, dim), ncomp, dim)
    ensures Residual(Blocks(means, scales, invScale, dof, ncomp, dim), dim) == invScale
  {
    BlocksEntries(means, scales, invScale, dof, ncomp, dim);
    var g := Blocks(means, scales, invScale, dof, ncomp, dim);
    QuadSumCancels(means, scales, dim);
    var o := OuterSum(means, scales, dim);
    var r := Residual(g, dim);
    forall i | 0 <= i < dim
      ensures r[i] == invScale[i]
    {
      forall j | 0 <= j < dim
        ensures r[i][j] == invScale[i][j]
      {
        assert QuadSum(g.grp2s, g.grp3s, dim) == o;
        assert r[i][j] == g.grp1[i][j] - o[i][j];
        assert g.grp1[i][j] == o[i][j] + invScale[i][j];
      }
    }
  }

  /** The log-normaliser reads back the Wishart parameters from the split
      natural vector: for non-zero scales the log-determinant's argument is
      the inverse scale matrix and `grp4 + D` is the degrees of freedom. */
  lemma ReadBackRecoversWishart(means: Matrix, scales: Vector, invScale: Matrix, dof: real, ncomp: nat, dim: nat)
    requires IsMatrix(means, ncomp, dim) && |scales| == ncomp && IsMatrix(invScale, dim, dim)
    requires forall k :: 0 <= k < ncomp ==> scales[k] != 0.0
    ensures Split(ncomp, dim, Natural(means, scales, invScale, dof, ncomp, dim)).Success?
    ensures var g := Split(ncomp, dim, Natural(means, scales, invScale, dof, ncomp, dim)).value;
      && WellShaped(g, ncomp, dim)
      && g.grp3s == scales
      && Residual(g, dim) == invScale
      && g.grp4 + dim as real == dof
  {
    NaturalLayout(means, scales, invScale, dof, ncomp, dim);
    ResidualOfBlocks(means, scales, invScale, dof, ncomp, dim);
  }
}

=== FILE: matrices.dfy ===
/** Two-dimensional real tensors as sequences of rows, with the row-major
    `view(-1)` (Flatten) and `view(rows, cols)` (View) that relate them to
    flat vectors. */
module Matrices {
  import opened Vectors

  type Matrix = seq<Vector>

  ghost predicate IsMatrix(m: Matrix, rows: nat, cols: nat)
  {
    |m| == rows && forall i :: 0 <= i < rows ==> |m[i]| == cols
  }

  predicate SameShape(a: Matrix, b: Matrix)
  {
    |a| == |b| && forall i :: 0 <= i < |a| ==> |a[i]| == |b[i]|
  }

  lemma MulStep(rows: nat, cols: nat)
    requires rows > 0
    ensures rows * cols == cols + (rows - 1) * cols
    ensures (rows - 1) * cols >= 0
  {
  }

  /** `m.view(-1)`: the rows of `m` laid end to end. */
  function Flatten(m: Matrix): Vector
    decreases |m|
  {
    if |m| == 0 then [] else m[0] + Flatten(m[1..])
  }

  lemma {:induction false} FlattenLength(m: Matrix, rows: nat, cols: nat)
    requires IsMatrix(m, rows, cols)
    ensures |Flatten(m)| == rows * cols
    decreases rows
  {
    if rows > 0 {
      FlattenLength(m[1..], rows - 1, cols);
      MulStep(rows, cols);
    }
  }

  /** `v.view(rows, cols)`: consecutive runs of `cols` entries become the rows. */
  function View(v: Vector, rows: nat, cols: nat): (m: Matrix)
    requires |v| == rows * cols
    ensures IsMatrix(m, rows, cols)
    decreases rows
  {
    if rows == 0 then []
    else
      MulStep(rows, cols);
      [v[..cols]] + View(v[cols..], rows - 1, cols)
  }

  /** Viewing a flat vector as a matrix and flattening it again gives the vector back. */
  lemma {:induction false} FlattenView(v: Vector, rows: nat, cols: nat)
    requires |v| == rows * cols
    ensures Flatten(View(v, rows, cols)) == v
    decreases rows
  {
    if rows > 0 {
      MulStep(rows, cols);
      var m := View(v, rows, cols);
      assert m[1..] == View(v[cols..], rows - 1, cols);
      FlattenView(v[cols..], rows - 1, cols);
      assert v == v[..cols] + v[cols..];
    }
  }

  /** Flattening a rows×cols matrix and viewing it with the same shape gives the matrix back. */
  lemma {:induction false} ViewFlatten(m: Matrix, rows: nat, cols: nat)
    requires IsMatrix(m, rows, cols)
    ensures |Flatten(m)| == rows * cols
    ensures View(Flatten(m), rows, cols) == m
    decreases rows
  {
    FlattenLength(m, rows, cols);
    if rows > 0 {
      var v := Flatten(m);
      assert v[..cols] == m[0];
      assert v[cols..] == Flatten(m[1..]);
      ViewFlatten(m[1..], rows - 1, cols);
      assert m == [m[0]] + m[1..];
    }
  }

  /** `a + b` on matrices of one shape. */
  function MatrixAdd(a: Matrix, b: Matrix): (c: Matrix)
    requires SameShape(a, b)
    ensures SameShape(c, a)
    ensures forall i, j :: 0 <= i < |c| && 0 <= j < |c[i]| ==> c[i][j] == a[i][j] + b[i][j]
  {
    seq(|a|, i requires 0 <= i < |a| => Add(a[i], b[i]))
  }

  /** `a - b` on matrices of one shape. */
  function MatrixSub(a: Matrix, b: Matrix): (c: Matrix)
    requires SameShape(a, b)
    ensures SameShape(c, a)
    ensures forall i, j :: 0 <= i < |c| && 0 <= j < |c[i]| ==> c[i][j] == a[i][j] - b[i][j]
  {
    seq(|a|, i requires 0 <= i < |a| => Sub(a[i], b[i]))
  }

  /** The rows×cols matrix of zeros. */
  function ZeroMatrix(rows: nat, cols: nat): (m: Matrix)
    ensures IsMatrix(m, rows, cols)
    ensures forall i, j :: 0 <= i < rows && 0 <= j < cols ==> m[i][j] == 0.0
  {
    seq(rows, _ => Zeros(cols))
  }

  /** `a * b` (Hadamard product) on matrices of one shape. */
  function Hadamard(a: Matrix, b: Matrix): (c: Matrix)
    requires SameShape(a, b)
    ensures SameShape(c, a)
    ensures forall i, j :: 0 <= i < |c| && 0 <= j < |c[i]| ==> c[i][j] == a[i][j] * b[i][j]
  {
    seq(|a|, i requires 0 <= i < |a| =>
      seq(|a[i]|, j requires 0 <= j < |a[i]| => a[i][j] * b[i][j]))
  }

  /** `a ** 2 / b` entry by entry, for a divisor with no zero entry. */
  function SquareOver(a: Matrix, b: Matrix): (c: Matrix)
    requires SameShape(a, b)
    requires forall i, j :: 0 <= i < |b| && 0 <= j < |b[i]| ==> b[i][j] != 0.0
    ensures SameShape(c, a)
    ensures forall i, j :: 0 <= i < |c| && 0 <= j < |c[i]| ==> c[i][j] == a[i][j] * a[i][j] / b[i][j]
  {
    seq(|a|, i requires 0 <= i < |a| =>
      seq(|a[i]|, j requires 0 <= j < |a[i]| => a[i][j] * a[i][j] / b[i][j]))
  }

  /** `c * m`. */
  function MatrixScale(c: real, m: Matrix): (r: Matrix)
    ensures SameShape(r, m)
    ensures forall i, j :: 0 <= i < |r| && 0 <= j < |r[i]| ==> r[i][j] == c * m[i][j]
  {
    seq(|m|, i requires 0 <= i < |m| => Scale(c, m[i]))
  }

  /** `torch.ger(x, y)`: the outer product, entry (i, j) being `x[i] * y[j]`. */
  function Outer(x: Vector, y: Vector): (m: Matrix)
    ensures IsMatrix(m, |x|, |y|)
    ensures forall i, j {:trigger m[i][j]} :: 0 <= i < |x| && 0 <= j < |y| ==> m[i][j] == x[i] * y[j]
  {
    seq(|x|, i requires 0 <= i < |x| => Scale(x[i], y))
  }

  /** `m.sum(dim=0)` for a matrix whose rows have `cols` entries. */
  function ColumnSums(m: Matrix, cols: nat): (r: Vector)
    requires forall k :: 0 <= k < |m| ==> |m[k]| == cols
    ensures |r| == cols
    decreases |m|
  {
    if |m| == 0 then Zeros(cols) else Add(m[0], ColumnSums(m[1..], cols))
  }
}

=== FILE: normal_full_covariance.dfy ===
/** The split helper of the full-covariance Normal prior: a natural vector
    of D² + D entries holds a D×D matrix (row-major) followed by a
    D-vector, and D is recovered from the length alone by solving
    D² + D = n. */
module NormalFullCovariance {
  import opened Vectors
  import opened Matrices

  lemma SquareMonotone(a: nat, b: nat)
    requires a <= b
    ensures a * a <= b * b
  {
    assert a * a <= a * b <= b * b;
  }

  /** The integer square root, counting up from a root candidate `r`. */
  function FloorSqrtFrom(x: nat, r: nat): (s: nat)
    requires r * r <= x
    ensures s * s <= x < (s + 1) * (s + 1)
    decreases x - r
  {
    if (r + 1) * (r + 1) > x then r
    else
      SquareMonotone(1, r + 1);
      assert r + 1 <= (r + 1) * (r + 1);
      FloorSqrtFrom(x, r + 1)
  }

  /** `sqrt` on a natural number, rounded down: exact on perfect squares. */
  function FloorSqrt(x: nat): (s: nat)
    ensures s * s <= x < (s + 1) * (s + 1)
  {
    FloorSqrtFrom(x, 0)
  }

  lemma Expand(d: nat)
    ensures (2 * d + 1) * (2 * d + 1) == 4 * (d * d + d) + 1
    ensures (2 * d + 3) * (2 * d + 3) == 4 * ((d + 1) * (d + 1) + (d + 1)) + 1
  {
  }

  /** A root `r` of `1 + 4n` brackets `(r - 1) / 2` as the D solving D² + D = n. */
  lemma DimBounds(n: nat, r: nat, d: nat)
    requires r * r <= 1 + 4 * n < (r + 1) * (r + 1)
    requires r >= 1 && d == (r - 1) / 2
    ensures d * d + d <= n < (d + 1) * (d + 1) + (d + 1)
  {
    assert 2 * d + 1 <= r && r + 1 <= 2 * d + 3;
    SquareMonotone(2 * d + 1, r);
    SquareMonotone(r + 1, 2 * d + 3);
    Expand(d);
  }

  /** `int(.5 * (-1 + sqrt(1 + 4 * n)))`: the largest D with D² + D <= n. */
  function DimOf(n: nat): (d: nat)
    ensures d * d + d <= n < (d + 1) * (d + 1) + (d + 1)
  {
    var r := FloorSqrt(1 + 4 * n);
    assert r >= 1;
    DimBounds(n, r, (r - 1) / 2);
    (r - 1) / 2
  }

  /** D² + D grows strictly with D, so it determines D. */
  lemma DimUnique(n: nat, d: nat)
    requires d * d + d <= n < (d + 1) * (d + 1) + (d + 1)
    ensures DimOf(n) == d
  {
    var e := DimOf(n);
    if e < d {
      SquareMonotone(e + 1, d);
    } else if e > d {
      SquareMonotone(d + 1, e);
    }
  }

  /** The three results of the split helper. */
  datatype Parts = Parts(np1: Matrix, np2: Vector, dim: nat)

  /** `_normal_fc_split_nparams`: D from the length, the first D² entries
      viewed as D×D, and every remaining entry. */
  function SplitNaturalParams(s: Vector): (r: Parts)
    ensures r.dim * r.dim + r.dim <= |s| < (r.dim + 1) * (r.dim + 1) + (r.dim + 1)
    ensures IsMatrix(r.np1, r.dim, r.dim)
    ensures |r.np2| == |s| - r.dim * r.dim
  {
    var dim := DimOf(|s|);
    Parts(View(s[..dim * dim], dim, dim), s[dim * dim..], dim)
  }

  /** The split never loses or repeats an entry: the flattened matrix and
      the rest concatenate back to the input. */
  lemma SplitPartition(s: Vector)
    ensures Flatten(SplitNaturalParams(s).np1) + SplitNaturalParams(s).np2 == s
  {
    var d := DimOf(|s|);
    FlattenView(s[..d * d], d, d);
    assert s == s[..d * d] + s[d * d..];
  }

  /** On a vector of length D² + D the helper recovers `dim = D` and returns
      the D×D matrix of the first D² entries and the last D entries. */
  lemma SplitRecoversDim(s: Vector, d: nat)
    requires |s| == d * d + d
    ensures SplitNaturalParams(s).dim == d
    ensures SplitNaturalParams(s).np1 == View(s[..d * d], d, d)
    ensures SplitNaturalParams(s).np2 == s[d * d..]
    ensures |SplitNaturalParams(s).np2| == d
  {
    assert d * d + d <= |s| < (d + 1) * (d + 1) + (d + 1);
    DimUnique(|s|, d);
  }

  /** Concatenating a D×D matrix (row-major) and a D-vector, then splitting,
      returns the matrix, the vector and D. */
  lemma SplitConcat(m: Matrix, v: Vector, d: nat)
    requires IsMatrix(m, d, d) && |v| == d
    ensures SplitNaturalParams(Flatten(m) + v) == Parts(m, v, d)
  {
    var s := Flatten(m) + v;
    ViewFlatten(m, d, d);
    SplitRecoversDim(s, d);
    assert s[..d * d] == Flatten(m);
    assert s[d * d..] == v;
  }
}

=== FILE: normal_gamma.dfy ===
/** The Normal-Gamma prior over a D-dimensional mean and the diagonal of a
    precision matrix: D independent Normal-Gamma densities whose natural
    vector is four D-blocks laid end to end. */
module NormalGamma {
  import opened Results
  import opened Vectors
  import opened Matrices

  /** The four groups of a natural vector, in construction order. */
  datatype Groups = Groups(np1: Vector, np2: Vector, np3: Vector, np4: Vector)

  /** The standard hyper-parameters. */
  datatype Standard = Standard(mean: Vector, scale: Vector, shape: Vector, rate: Vector)

  predicate Uniform(g: Groups, d: nat)
  {
    |g.np1| == d && |g.np2| == d && |g.np3| == d && |g.np4| == d
  }

  /** `torch.cat` of the four groups. */
  function Concat(g: Groups): Vector
  {
    g.np1 + g.np2 + g.np3 + g.np4
  }

  /** The four blocks the constructor builds, `scale * mean**2 + 2 * rate`,
      `scale * mean`, `scale` and `2 * shape - 1`, under one-dimensional
      broadcasting; `None` where torch raises a size error. */
  function Blocks(mean: Vector, scale: Vector, shape: Vector, rate: Vector): (r: Option<Groups>)
    ensures r.Some? <==> Broadcastable(|scale|, |mean|)
                         && Broadcastable(BroadcastLength(|scale|, |mean|), |rate|)
    ensures r.Some? ==>
      && |r.value.np1| == BroadcastLength(BroadcastLength(|scale|, |mean|), |rate|)
      && |r.value.np2| == BroadcastLength(|scale|, |mean|)
      && r.value.np3 == scale
      && |r.value.np4| == |shape|
  {
    match Broadcast(Times, scale, Square(mean))
    case None => None
    case Some(quad) =>
      match Broadcast(Plus, quad, Scale(2.0, rate))
      case None => None
      case Some(b1) =>
        match Broadcast(Times, scale, mean)
        case None => None
        case Some(b2) => Some(Groups(b1, b2, scale, Affine(2.0, shape, -1.0)))
  }

  /** The constructor's natural vector: torch raises a size error exactly
      where the blocks do not broadcast, and the four blocks are laid end to
      end whatever their lengths. */
  function Natural(mean: Vector, scale: Vector, shape: Vector, rate: Vector): (r: Result<Vector>)
    ensures r.Success? <==> Broadcastable(|scale|, |mean|)
                            && Broadcastable(BroadcastLength(|scale|, |mean|), |rate|)
    ensures r.Failure? ==> r.error == ShapeMismatch
    ensures r.Success? ==>
      |r.value| == BroadcastLength(BroadcastLength(|scale|, |mean|), |rate|)
                   + BroadcastLength(|scale|, |mean|) + |scale| + |shape|
  {
    match Blocks(mean, scale, shape, rate)
    case None => Failure(ShapeMismatch)
    case Some(g) => Success(Concat(g))
  }

  /** `tuple(s_stats.view(4, -1))`: four rows of equal length. The view
      fails when the length is not a multiple of four; an empty vector
      gives four empty rows. */
  function Split(s: Vector): (r: Result<Groups>)
    ensures r.Success? <==> |s| % 4 == 0
    ensures r.Success? ==> Uniform(r.value, |s| / 4)
  {
    if |s| % 4 != 0 then Failure(ViewSizeMismatch)
    else
      var m := View(s, 4, |s| / 4);
      Success(Groups(m[0], m[1], m[2], m[3]))
  }

  /** What the log-normaliser reads back from the groups: `np3` is the
      scale, `.5 * (np4 + 1)` the shape and `.5 * (np1 - np2**2 / np3)` the
      rate; `np2 / np3` completes the inverse with the mean. */
  function ReadBack(g: Groups): (std: Standard)
    requires Uniform(g, |g.np1|)
    requires forall i :: 0 <= i < |g.np3| ==> g.np3[i] != 0.0
  {
    var d := |g.np1|;
    Standard(
      seq(d, i requires 0 <= i < d => MeanOf(g.np2[i], g.np3[i])),
      g.np3,
      Affine(0.5, g.np4, 0.5),
      seq(d, i requires 0 <= i < d => RateOf(g.np1[i], g.np2[i], g.np3[i])))
  }

  /** One entry of the mean read-back, `np2 / np3`. */
  function MeanOf(p2: real, p3: real): real
    requires p3 != 0.0
  {
    p2 / p3
  }

  /** One entry of the rate read-back, `.5 * (np1 - np2**2 / np3)`. */
  function RateOf(p1: real, p2: real, p3: real): real
    requires p3 != 0.0
  {
    0.5 * (p1 - p2 * p2 / p3)
  }

  lemma FlattenFour(m: Matrix)
    requires |m| == 4
    ensures Flatten(m) == m[0] + m[1] + m[2] + m[3]
  {
    assert Flatten(m[3..]) == m[3] + Flatten(m[3..][1..]);
    assert m[3..][1..] == [];
    assert Flatten(m[2..]) == m[2] + Flatten(m[2..][1..]);
    assert m[2..][1..] == m[3..];
    assert Flatten(m[1..]) == m[1] + Flatten(m[1..][1..]);
    assert m[1..][1..] == m[2..];
  }

  /** A successful split cuts the vector into four pieces that concatenate back to it. */
  lemma SplitPartition(s: Vector)
    requires Split(s).Success?
    ensures Concat(Split(s).value) == s
  {
    var m := View(s, 4, |s| / 4);
    FlattenView(s, 4, |s| / 4);
    FlattenFour(m);
  }

  /** Splitting a concatenation returns the groups exactly when they are
      of one length; otherwise the split fails or regroups. */
  lemma SplitConcat(g: Groups)
    ensures Split(Concat(g)) == Success(g) <==> Uniform(g, |g.np1|)
  {
    var s := Concat(g);
    var d := |g.np1|;
    if Uniform(g, d) {
      assert |s| == 4 * d;
      var h := Split(s).value;
      SplitPartition(s);
      SlicesInOrder(g.np1, g.np2, g.np3, g.np4);
      SlicesInOrder(h.np1, h.np2, h.np3, h.np4);
    }
  }

  /** With mean, scale, shape and rate all of length D the constructor's
      blocks are D long: `scale * mean**2 + 2 * rate`, `scale * mean`,
      `scale` and `2 * shape - 1`, entry by entry. */
  lemma BlocksOfEqualLengths(mean: Vector, scale: Vector, shape: Vector, rate: Vector)
    requires |mean| == |scale| == |shape| == |rate|
    ensures Blocks(mean, scale, shape, rate).Some?
    ensures Uniform(Blocks(mean, scale, shape, rate).value, |mean|)
    ensures Blocks(mean, scale, shape, rate).value.np3 == scale
    ensures forall i :: 0 <= i < |mean| ==>
      && Blocks(mean, scale, shape, rate).value.np1[i] == scale[i] * (mean[i] * mean[i]) + 2.0 * rate[i]
      && Blocks(mean, scale, shape, rate).value.np2[i] == scale[i] * mean[i]
      && Blocks(mean, scale, shape, rate).value.np4[i] == 2.0 * shape[i] - 1.0
  {
    BroadcastSameLength(Times, scale, Square(mean));
    var quad := Broadcast(Times, scale, Square(mean)).value;
    BroadcastSameLength(Plus, quad, Scale(2.0, rate));
    BroadcastSameLength(Times, scale, mean);
  }

  /** With all four inputs of length D the natural vector has length
      4·D and the split returns exactly the constructed blocks, in order. */
  lemma NaturalLayout(mean: Vector, scale: Vector, shape: Vector, rate: Vector)
    requires |mean| == |scale| == |shape| == |rate|
    ensures Blocks(mean, scale, shape, rate).Some?
    ensures Natural(mean, scale, shape, rate).Success?
    ensures |Natural(mean, scale, shape, rate).value| == 4 * |mean|
    ensures Split(Natural(mean, scale, shape, rate).value) == Success(Blocks(mean, scale, shape, rate).value)
  {
    BlocksOfEqualLengths(mean, scale, shape, rate);
    SplitConcat(Blocks(mean, scale, shape, rate).value);
  }

  /** Entry by entry, the read-back undoes the constructor's transform. */
  lemma ReadBackEntry(m: real, k: real, a: real, b: real, p1: real, p2: real, p3: real, p4: real)
    requires k != 0.0
    requires p1 == k * (m * m) + 2.0 * b && p2 == k * m && p3 == k && p4 == 2.0 * a - 1.0
    ensures MeanOf(p2, p3) == m
    ensures 0.5 * p4 + 0.5 == a
    ensures RateOf(p1, p2, p3) == b
  {
    CancelFactor(k, m);
    CancelQuadratic(k, m, m);
  }

  lemma ReadBackOfBlocks(mean: Vector, scale: Vector, shape: Vector, rate: Vector)
    requires |mean| == |scale| == |shape| == |rate|
    requires forall i :: 0 <= i < |scale| ==> scale[i] != 0.0
    ensures Blocks(mean, scale, shape, rate).Some?
    ensures ReadBack(Blocks(mean, scale, shape, rate).value) == Standard(mean, scale, shape, rate)
  {
    BlocksOfEqualLengths(mean, scale, shape, rate);
    var g := Blocks(mean, scale, shape, rate).value;
    var std := ReadBack(g);
    forall i | 0 <= i < |mean|
      ensures std.mean[i] == mean[i] && std.shape[i] == shape[i] && std.rate[i] == rate[i]
    {
      ReadBackEntry(mean[i], scale[i], shape[i], rate[i], g.np1[i], g.np2[i], g.np3[i], g.np4[i]);
    }
    assert std.mean == mean;
    assert std.shape == shape;
    assert std.rate == rate;
  }

  /** The log-normaliser's reading of the split natural vector recovers
      every standard hyper-parameter the constructor was given, for
      non-zero scales. */
  lemma ReadBackRecoversStandard(mean: Vector, scale: Vector, shape: Vector, rate: Vector)
    requires |mean| == |scale| == |shape| == |rate|
    requires forall i :: 0 <= i < |scale| ==> scale[i] != 0.0
    ensures Natural(mean, scale, shape, rate).Success?
    ensures var s := Natural(mean, scale, shape, rate).value;
      Split(s).Success? && ReadBack(Split(s).value) == Standard(mean, scale, shape, rate)
  {
    NaturalLayout(mean, scale, shape, rate);
    ReadBackOfBlocks(mean, scale, shape, rate);
  }

  /** A length-1 scale broadcasts in the first two blocks but stays one
      entry long in the third: mean (1, 2, 3), scale (1), shape (1) and
      rate (0, 0, 0) give an 8-entry vector that the split cuts into pairs,
      none of which is a constructed block. */
  lemma ScalarScaleMisgroups()
    ensures Blocks([1.0, 2.0, 3.0], [1.0], [1.0], [0.0, 0.0, 0.0]).Some?
    ensures Natural([1.0, 2.0, 3.0], [1.0], [1.0], [0.0, 0.0, 0.0]).Success?
    ensures var s := Natural([1.0, 2.0, 3.0], [1.0], [1.0], [0.0, 0.0, 0.0]).value;
      && |s| == 8
      && Split(s).Success?
      && Split(s).value != Blocks([1.0, 2.0, 3.0], [1.0], [1.0], [0.0, 0.0, 0.0]).value
  {
    var g := Blocks([1.0, 2.0, 3.0], [1.0], [1.0], [0.0, 0.0, 0.0]).value;
    assert |g.np1| == 3 && |g.np3| == 1;
    SplitConcat(g);
  }
}

=== FILE: normal_wishart.dfy ===
/** The Normal-Wishart prior over a D-dimensional mean and a full
    precision matrix. Its natural vector is a D×D matrix flattened
    row-major, a D-block and two scalars; the split reads the scalars from
    the end of the vector. */
module NormalWishart {
  import opened Results
  import opened Vectors
  import opened Matrices

  /** The four groups of a natural vector, in construction order. */
  datatype Groups = Groups(hnp1: Matrix, hnp2: Vector, hnp3: real, hnp4: real)

  ghost predicate WellShaped(g: Groups, dim: nat)
  {
    IsMatrix(g.hnp1, dim, dim) && |g.hnp2| == dim
  }

  /** `torch.cat` of the groups, the matrix flattened row-major. */
  function Concat(g: Groups): Vector
  {
    Flatten(g.hnp1) + g.hnp2 + [g.hnp3, g.hnp4]
  }

  /** The groups the constructor builds from the mean, the scalar scale,
      the inverse of the Wishart scale matrix and the degrees of freedom:
      `scale * ger(mean, mean) + inv_scale`, `scale * mean`, `scale` and
      `dof - D`. */
  function Blocks(mean: Vector, scale: real, invScale: Matrix, dof: real): (g: Groups)
    requires IsMatrix(invScale, |mean|, |mean|)
    ensures WellShaped(g, |mean|)
    ensures g.hnp4 + |mean| as real == dof
  {
    Groups(
      MatrixAdd(MatrixScale(scale, Outer(mean, mean)), invScale),
      Scale(scale, mean),
      scale,
      dof - |mean| as real)
  }

  /** The constructor's natural vector; `dim = mean.size(0)`. It holds
      D² + D + 2 entries, so the split with the recorded `dim` accepts it. */
  function Natural(mean: Vector, scale: real, invScale: Matrix, dof: real): (eta: Vector)
    requires IsMatrix(invScale, |mean|, |mean|)
    ensures |eta| == |mean| * |mean| + |mean| + 2
    ensures Split(|mean|, eta).Success?
  {
    var g := Blocks(mean, scale, invScale, dof);
    FlattenLength(g.hnp1, |mean|, |mean|);
    Concat(g)
  }

  /** `split_sufficient_statistics`: the first D² entries viewed as D×D,
      the entries up to the last two, and the last two unpacked as two
      scalars. The view fails on a vector shorter than D² and the
      unpacking on one shorter than 2. */
  function Split(dim: nat, s: Vector): (r: Result<Groups>)
    ensures r.Success? <==> |s| >= dim * dim && |s| >= 2
    ensures r.Success? ==> IsMatrix(r.value.hnp1, dim, dim)
  {
    var grp1 := Slice(s, 0, dim * dim);
    var grp2 := Slice(s, dim * dim, -2);
    var tail := Slice(s, -2, |s|);
    if |grp1| != dim * dim then Failure(ViewSizeMismatch)
    else if |tail| != 2 then Failure(UnpackMismatch)
    else Success(Groups(View(grp1, dim, dim), grp2, tail[0], tail[1]))
  }

  /** A successful split reproduces its input exactly when the input holds
      at least D² + 2 entries. On a shorter input the scalars are read from
      entries the matrix already took, so the groups overlap. */
  lemma SplitPartition(dim: nat, s: Vector)
    requires Split(dim, s).Success?
    ensures Concat(Split(dim, s).value) == s <==> |s| >= dim * dim + 2
  {
    var g := Split(dim, s).value;
    var n := |s|;
    FlattenView(Slice(s, 0, dim * dim), dim, dim);
    if n >= dim * dim + 2 {
      assert Slice(s, 0, dim * dim) == s[..dim * dim];
      assert g.hnp2 == s[dim * dim..n - 2];
      assert s == s[..dim * dim] + s[dim * dim..n - 2] + [s[n - 2], s[n - 1]];
    } else {
      assert |Concat(g)| >= dim * dim + 2;
    }
  }

  /** Two entries and D = 1: the split succeeds, but the first scalar is
      the matrix's only entry again. */
  lemma ShortInputOverlaps()
    ensures Split(1, [3.0, 4.0]) == Success(Groups([[3.0]], [], 3.0, 4.0))
  {
    var s := [3.0, 4.0];
    assert Slice(s, 0, 1) == [3.0];
    var v: Vector := [3.0];
    assert v[..1] == v && v[1..] == [];
    assert View(v, 1, 1) == [v[..1]] + View(v[1..], 0, 1);
    assert Slice(s, 1, -2) == [];
    assert Slice(s, -2, 2) == s;
    var r := Split(1, s);
    assert r.Success?;
    assert r.value.hnp1 == [[3.0]];
    assert r.value.hnp2 == [];
    assert r.value.hnp3 == 3.0;
    assert r.value.hnp4 == 4.0;
  }

  /** Splitting the concatenation of well-shaped groups returns those groups. */
  lemma SplitConcat(g: Groups, dim: nat)
    requires WellShaped(g, dim)
    ensures Split(dim, Concat(g)) == Success(g)
  {
    ViewFlatten(g.hnp1, dim, dim);
    var a := Flatten(g.hnp1);
    SlicesBeforeLastTwo(a, g.hnp2, g.hnp3, g.hnp4);
  }

  /** The constructor's groups are well shaped, entry by entry
      `scale * mean[i] * mean[j] + inv_scale[i][j]`, `scale * mean[i]`,
      `scale` and `dof - D`. */
  lemma BlocksEntries(mean: Vector, scale: real, invScale: Matrix, dof: real)
    requires IsMatrix(invScale, |mean|, |mean|)
    ensures var g := Blocks(mean, scale, invScale, dof);
      && WellShaped(g, |mean|)
      && (forall i, j {:trigger g.hnp1[i][j]} :: 0 <= i < |mean| && 0 <= j < |mean| ==>
            g.hnp1[i][j] == scale * (mean[i] * mean[j]) + invScale[i][j])
      && (forall i :: 0 <= i < |mean| ==> g.hnp2[i] == scale * mean[i])
      && g.hnp3 == scale
      && g.hnp4 == dof - |mean| as real
  {
    var o := Outer(mean, mean);
    var a := MatrixScale(scale, o);
    assert IsMatrix(a, |mean|, |mean|);
    var c := MatrixAdd(a, invScale);
    assert IsMatrix(c, |mean|, |mean|);
    forall i, j {:trigger c[i][j]} | 0 <= i < |mean| && 0 <= j < |mean|
      ensures c[i][j] == scale * (mean[i] * mean[j]) + invScale[i][j]
    {
      assert c[i][j] == a[i][j] + invScale[i][j];
      assert a[i][j] == scale * o[i][j];
    }
  }

  /** The natural vector has length D² + D + 2 and the split returns
      exactly the constructed groups. */
  lemma NaturalLayout(mean: Vector, scale: real, invScale: Matrix, dof: real)
    requires IsMatrix(invScale, |mean|, |mean|)
    ensures |Natural(mean, scale, invScale, dof)| == |mean| * |mean| + |mean| + 2
    ensures Split(|mean|, Natural(mean, scale, invScale, dof)) == Success(Blocks(mean, scale, invScale, dof))
  {
    var g := Blocks(mean, scale, invScale, dof);
    BlocksEntries(mean, scale, invScale, dof);
    SplitConcat(g, |mean|);
    FlattenLength(g.hnp1, |mean|, |mean|);
  }

  /** What the log-normaliser passes to the log-determinant:
      `hnp1 - ger(hnp2, hnp2) / hnp3`. */
  function Residual(g: Groups): (m: Matrix)
    requires WellShaped(g, |g.hnp2|)
    requires g.hnp3 != 0.0
    ensures IsMatrix(m, |g.hnp2|, |g.hnp2|)
  {
    var d := |g.hnp2|;
    seq(d, i requires 0 <= i < d =>
      seq(d, j requires 0 <= j < d => g.hnp1[i][j] - g.hnp2[i] * g.hnp2[j] / g.hnp3))
  }

  /** One entry of the residual of groups built from `mean`, `scale` and
      `invScale`. */
  lemma ResidualEntry(g: Groups, mean: Vector, scale: real, invScale: Matrix, i: nat, j: nat)
    requires WellShaped(g, |mean|) && IsMatrix(invScale, |mean|, |mean|)
    requires i < |mean| && j < |mean|
    requires scale != 0.0 && g.hnp3 == scale
    requires g.hnp1[i][j] == scale * (mean[i] * mean[j]) + invScale[i][j]
    requires g.hnp2[i] == scale * mean[i] && g.hnp2[j] == scale * mean[j]
    ensures Residual(g)[i][j] == invScale[i][j]
  {
    var h, x, y := g.hnp1[i][j], g.hnp2[i], g.hnp2[j];
    assert Residual(g)[i][j] == h - x * y / scale;
    CancelResidual(scale, mean[i], mean[j], invScale[i][j], h, x, y);
  }

  lemma ResidualOfBlocks(mean: Vector, scale: real, invScale: Matrix, dof: real)
    requires IsMatrix(invScale, |mean|, |mean|)
    requires scale != 0.0
    ensures WellShaped(Blocks(mean, scale, invScale, dof), |mean|)
    ensures Residual(Blocks(mean, scale, invScale, dof)) == invScale
  {
    BlocksEntries(mean, scale, invScale, dof);
    var g := Blocks(mean, scale, invScale, dof);
    var r := Residual(g);
    forall i | 0 <= i < |mean|
      ensures r[i] == invScale[i]
    {
      forall j | 0 <= j < |mean|
        ensures r[i][j] == invScale[i][j]
      {
        ResidualEntry(g, mean, scale, invScale, i, j);
      }
    }
  }

  /** The log-normaliser reads back the Wishart parameters: for a non-zero
      scale the log-determinant's argument is the inverse scale matrix, and
      `hnp4 + D` is the degrees of freedom. */
  lemma ReadBackRecoversWishart(mean: Vector, scale: real, invScale: Matrix, dof: real)
    requires IsMatrix(invScale, |mean|, |mean|)
    requires scale != 0.0
    ensures Split(|mean|, Natural(mean, scale, invScale, dof)).Success?
    ensures var g := Split(|mean|, Natural(mean, scale, invScale, dof)).value;
      && WellShaped(g, |mean|)
      && g.hnp3 == scale
      && Residual(g) == invScale
      && g.hnp4 + |mean| as real == dof
  {
    NaturalLayout(mean, scale, invScale, dof);
    ResidualOfBlocks(mean, scale, invScale, dof);
  }
}

=== FILE: priors.dfy ===
/** The concrete prior constructors: each turns standard hyper-parameters
    into its family's natural vector, records the sizes its split needs,
    and hands the vector to the abstract prior, which fills in the expected
    sufficient statistics. Construction fails where the constructor's own
    arithmetic does not broadcast or where the family's `log_norm` rejects
    the vector it built. Because ∇A has the shape of its argument, the
    family's split applies to the statistics exactly as to the natural
    vector. */
module Priors {
  import opened Results
  import opened Vectors
  import opened Matrices
  import opened ExpFamilyPrior
  import Dirichlet
  import NormalGamma
  import JointNormalGamma
  import NormalWishart
  import JointNormalWishart

  /** `DirichletPrior(concentrations)`. */
  function DirichletPrior(concentrations: Vector, a: LogNormalizer): (p: Prior)
    requires Differentiable(a)
    ensures p.family == DirichletFamily
    ensures Consistent(p, a)
    ensures Dirichlet.Concentrations(Dirichlet.Split(NaturalHparams(p))) == concentrations
    ensures |ExpectedSufficientStatistics(p)| == |concentrations|
  {
    Dirichlet.ConcentrationsRoundTrip(concentrations);
    Construct(DirichletFamily, Dirichlet.Natural(concentrations), a).value
  }

  /** `NormalGammaPrior(mean, scale, shape, rate)`; fails with a size error
      where the constructor's element-wise arithmetic cannot broadcast, and
      with a view error where the vector it builds is not a multiple of
      four long, so that `log_norm` cannot cut it into four rows. */
  function NormalGammaPrior(mean: Vector, scale: Vector, shape: Vector, rate: Vector, a: LogNormalizer): (r: Result<Prior>)
    requires Differentiable(a)
    ensures r.Success? <==> NormalGamma.Natural(mean, scale, shape, rate).Success?
                            && |NormalGamma.Natural(mean, scale, shape, rate).value| % 4 == 0
    ensures NormalGamma.Natural(mean, scale, shape, rate).Failure? ==> r == Failure(ShapeMismatch)
    ensures NormalGamma.Natural(mean, scale, shape, rate).Success? && r.Failure? ==> r == Failure(ViewSizeMismatch)
    ensures r.Success? ==> r.value.family == NormalGammaFamily && Consistent(r.value, a)
    ensures r.Success? ==> NaturalHparams(r.value) == NormalGamma.Natural(mean, scale, shape, rate).value
  {
    match NormalGamma.Natural(mean, scale, shape, rate)
    case Failure(e) => Failure(e)
    case Success(eta) => Construct(NormalGammaFamily, eta, a)
  }

  /** A mean and rate of length 2 with a scale and shape of length 1
      broadcast in the constructor but give a 6-entry vector, which the
      setter's `log_norm` cannot view as four rows. */
  lemma NormalGammaPriorRejectsMixedLengths(a: LogNormalizer)
    requires Differentiable(a)
    ensures NormalGamma.Natural([0.0, 0.0], [1.0], [1.0], [1.0, 1.0]).Success?
    ensures |NormalGamma.Natural([0.0, 0.0], [1.0], [1.0], [1.0, 1.0]).value| == 6
    ensures NormalGammaPrior([0.0, 0.0], [1.0], [1.0], [1.0, 1.0], a) == Failure(ViewSizeMismatch)
  {
  }

  /** With inputs of one length D the prior's natural vector splits
      into the constructed blocks, and its statistics split into four
      groups of D entries that cover them. */
  lemma NormalGammaPriorSplits(mean: Vector, scale: Vector, shape: Vector, rate: Vector, a: LogNormalizer)
    requires Differentiable(a)
    requires |mean| == |scale| == |shape| == |rate|
    ensures NormalGammaPrior(mean, scale, shape, rate, a).Success?
    ensures var p := NormalGammaPrior(mean, scale, shape, rate, a).value;
      && NormalGamma.Split(NaturalHparams(p)) == Success(NormalGamma.Blocks(mean, scale, shape, rate).value)
      && NormalGamma.Split(ExpectedSufficientStatistics(p)).Success?
      && NormalGamma.Uniform(NormalGamma.Split(ExpectedSufficientStatistics(p)).value, |mean|)
      && NormalGamma.Concat(NormalGamma.Split(ExpectedSufficientStatistics(p)).value) == ExpectedSufficientStatistics(p)
  {
    NormalGamma.NaturalLayout(mean, scale, shape, rate);
    var p := NormalGammaPrior(mean, scale, shape, rate, a).value;
    assert |ExpectedSufficientStatistics(p)| == |NaturalHparams(p)|;
    NormalGamma.SplitPartition(ExpectedSufficientStatistics(p));
  }

  /** `JointNormalGammaPrior(means, scales, shape, rate)` for K×D means and
      scales; it records `ncomp = K` and `dim = D`. It fails where `rate`
      does not broadcast against the D sums, and otherwise where the
      family's `log_norm` rejects the vector built. */
  function JointNormalGammaPrior(means: Matrix, scales: Matrix, shape: Vector, rate: Vector,
                                 ncomp: nat, dim: nat, a: LogNormalizer): (r: Result<Prior>)
    requires Differentiable(a)
    requires IsMatrix(means, ncomp, dim) && IsMatrix(scales, ncomp, dim)
    ensures r.Success? <==>
      && JointNormalGamma.Natural(means, scales, shape, rate, ncomp, dim).Success?
      && LogNormError(JointNormalGammaFamily(ncomp, dim), JointNormalGamma.Natural(means, scales, shape, rate, ncomp, dim).value).None?
    ensures !Broadcastable(dim, |rate|) ==> r == Failure(ShapeMismatch)
    ensures r.Success? ==> r.value.family == JointNormalGammaFamily(ncomp, dim) && Consistent(r.value, a)
    ensures r.Success? ==> NaturalHparams(r.value) == JointNormalGamma.Natural(means, scales, shape, rate, ncomp, dim).value
  {
    match JointNormalGamma.Natural(means, scales, shape, rate, ncomp, dim)
    case Failure(e) => Failure(e)
    case Success(eta) => Construct(JointNormalGammaFamily(ncomp, dim), eta, a)
  }

  /** With `rate` of length D the prior is built exactly when `shape` has 1
      or D entries: `log_norm` multiplies `hnp4 + 1`, which has the shape's
      length, by the D-vector of residuals. */
  lemma JointNormalGammaPriorAccepts(means: Matrix, scales: Matrix, shape: Vector, rate: Vector,
                                     ncomp: nat, dim: nat, a: LogNormalizer)
    requires Differentiable(a)
    requires IsMatrix(means, ncomp, dim) && IsMatrix(scales, ncomp, dim) && |rate| == dim
    ensures JointNormalGammaPrior(means, scales, shape, rate, ncomp, dim, a).Success? <==> Broadcastable(|shape|, dim)
    ensures !Broadcastable(|shape|, dim) ==> JointNormalGammaPrior(means, scales, shape, rate, ncomp, dim, a) == Failure(ShapeMismatch)
  {
    JointNormalGamma.NaturalLayout(means, scales, shape, rate, ncomp, dim);
  }

  /** One component in two dimensions with a three-entry shape: the
      constructor's arithmetic broadcasts, but `log_norm` cannot combine
      the shape with the two residuals. */
  lemma JointNormalGammaPriorRejectsShape(a: LogNormalizer)
    requires Differentiable(a)
    ensures JointNormalGamma.Natural([[1.0, 2.0]], [[1.0, 1.0]], [1.0, 1.0, 1.0], [1.0, 1.0], 1, 2).Success?
    ensures JointNormalGammaPrior([[1.0, 2.0]], [[1.0, 1.0]], [1.0, 1.0, 1.0], [1.0, 1.0], 1, 2, a) == Failure(ShapeMismatch)
  {
    JointNormalGammaPriorAccepts([[1.0, 2.0]], [[1.0, 1.0]], [1.0, 1.0, 1.0], [1.0, 1.0], 1, 2, a);
  }

  /** The split with the recorded `ncomp` and `dim` returns the constructed
      groups from the natural vector, and partitions the statistics. */
  lemma JointNormalGammaPriorSplits(means: Matrix, scales: Matrix, shape: Vector, rate: Vector,
                                    ncomp: nat, dim: nat, a: LogNormalizer)
    requires Differentiable(a)
    requires IsMatrix(means, ncomp, dim) && IsMatrix(scales, ncomp, dim) && |rate| == dim
    requires Broadcastable(|shape|, dim)
    ensures JointNormalGammaPrior(means, scales, shape, rate, ncomp, dim, a).Success?
    ensures var p := JointNormalGammaPrior(means, scales, shape, rate, ncomp, dim, a).value;
      && JointNormalGamma.Split(p.family.ncomp, p.family.dim, NaturalHparams(p))
           == Success(JointNormalGamma.Blocks(means, scales, shape, rate, ncomp, dim).value)
      && JointNormalGamma.Split(p.family.ncomp, p.family.dim, ExpectedSufficientStatistics(p)).Success?
      && JointNormalGamma.Concat(JointNormalGamma.Split(p.family.ncomp, p.family.dim, ExpectedSufficientStatistics(p)).value)
           == ExpectedSufficientStatistics(p)
  {
    JointNormalGammaPriorAccepts(means, scales, shape, rate, ncomp, dim, a);
    JointNormalGamma.NaturalLayout(means, scales, shape, rate, ncomp, dim);
    var p := JointNormalGammaPrior(means, scales, shape, rate, ncomp, dim, a).value;
    assert |ExpectedSufficientStatistics(p)| == |NaturalHparams(p)|;
    JointNormalGamma.SplitPartition(ncomp, dim, ExpectedSufficientStatistics(p));
  }

  /** `NormalWishartPrior(mean, scale, scale_matrix, dof)`, given the
      inverse of the scale matrix; it records `dim = |mean|`. Its vector
      always passes `log_norm`'s split and outer product. */
  function NormalWishartPrior(mean: Vector, scale: real, invScale: Matrix, dof: real, a: LogNormalizer): (p: Prior)
    requires Differentiable(a)
    requires IsMatrix(invScale, |mean|, |mean|)
    ensures p.family == NormalWishartFamily(|mean|) && Consistent(p, a)
    ensures NaturalHparams(p) == NormalWishart.Natural(mean, scale, invScale, dof)
  {
    NormalWishart.NaturalLayout(mean, scale, invScale, dof);
    Construct(NormalWishartFamily(|mean|), NormalWishart.Natural(mean, scale, invScale, dof), a).value
  }

  /** The split with the recorded `dim` returns the constructed groups from
      the natural vector, and partitions the statistics. */
  lemma NormalWishartPriorSplits(mean: Vector, scale: real, invScale: Matrix, dof: real, a: LogNormalizer)
    requires Differentiable(a)
    requires IsMatrix(invScale, |mean|, |mean|)
    ensures var p := NormalWishartPrior(mean, scale, invScale, dof, a);
      && NormalWishart.Split(p.family.dim, NaturalHparams(p)) == Success(NormalWishart.Blocks(mean, scale, invScale, dof))
      && NormalWishart.Split(p.family.dim, ExpectedSufficientStatistics(p)).Success?
      && NormalWishart.Concat(NormalWishart.Split(p.family.dim, ExpectedSufficientStatistics(p)).value)
           == ExpectedSufficientStatistics(p)
  {
    NormalWishart.NaturalLayout(mean, scale, invScale, dof);
    var p := NormalWishartPrior(mean, scale, invScale, dof, a);
    assert |ExpectedSufficientStatistics(p)| == |NaturalHparams(p)|;
    NormalWishart.SplitPartition(|mean|, ExpectedSufficientStatistics(p));
  }

  /** `JointNormalWishartPrior(means, scales, scale_matrix, dof)` for K×D
      means and K scales, given the inverse scale matrix; it records
      `ncomp = K` and `dim = D`. Its vector always passes `log_norm`'s
      split and broadcasting. */
  function JointNormalWishartPrior(means: Matrix, scales: Vector, invScale: Matrix, dof: real,
                                   ncomp: nat, dim: nat, a: LogNormalizer): (p: Prior)
    requires Differentiable(a)
    requires IsMatrix(means, ncomp, dim) && |scales| == ncomp && IsMatrix(invScale, dim, dim)
    ensures p.family == JointNormalWishartFamily(ncomp, dim) && Consistent(p, a)
    ensures NaturalHparams(p) == JointNormalWishart.Natural(means, scales, invScale, dof, ncomp, dim)
  {
    JointNormalWishart.NaturalLayout(means, scales, invScale, dof, ncomp, dim);
    Construct(JointNormalWishartFamily(ncomp, dim), JointNormalWishart.Natural(means, scales, invScale, dof, ncomp, dim), a).value
  }

  /** The split with the recorded `ncomp` and `dim` returns the constructed
      groups from the natural vector, and partitions the statistics. */
  lemma JointNormalWishartPriorSplits(means: Matrix, scales: Vector, invScale: Matrix, dof: real,
                                      ncomp: nat, dim: nat, a: LogNormalizer)
    requires Differentiable(a)
    requires IsMatrix(means, ncomp, dim) && |scales| == ncomp && IsMatrix(invScale, dim, dim)
    ensures var p := JointNormalWishartPrior(means, scales, invScale, dof, ncomp, dim, a);
      && JointNormalWishart.Split(p.family.ncomp, p.family.dim, NaturalHparams(p))
           == Success(JointNormalWishart.Blocks(means, scales, invScale, dof, ncomp, dim))
      && JointNormalWishart.Split(p.family.ncomp, p.family.dim, ExpectedSufficientStatistics(p)).Success?
      && JointNormalWishart.Concat(JointNormalWishart.Split(p.family.ncomp, p.family.dim, ExpectedSufficientStatistics(p)).value)
           == ExpectedSufficientStatistics(p)
  {
    JointNormalWishart.NaturalLayout(means, scales, invScale, dof, ncomp, dim);
    var p := JointNormalWishartPrior(means, scales, invScale, dof, ncomp, dim, a);
    assert |ExpectedSufficientStatistics(p)| == |NaturalHparams(p)|;
    JointNormalWishart.SplitPartition(ncomp, dim, ExpectedSufficientStatistics(p));
  }
}

=== FILE: results.dfy ===
/** Failure-compatible results for the tensor operations of the model.
    Every way in which the modelled Python code raises is one `Error`. */
module Results {

  datatype Option<+T> = None | Some(value: T)

  /** The exceptions the modelled code can raise. */
  datatype Error =
    | ViewSizeMismatch   // `view` asked for a shape whose size is not the element count
    | ShapeMismatch      // element-wise or inner-product operands of incompatible sizes
    | UnpackMismatch     // tuple unpacking of a slice with the wrong number of entries
    | IndexOutOfRange    // indexing an empty vector
    | NoGradientGraph    // back-propagating from a value that does not require gradients
    | NotCallable        // calling a tensor as if it were a function
    | MissingAttribute   // reading an attribute the object does not have

  datatype Result<+T> = Success(value: T) | Failure(error: Error)
}

=== FILE: vectors.dfy ===
/** One-dimensional real tensors: element-wise arithmetic, one-dimensional
    broadcasting, inner products and Python's slicing rules. */
module Vectors {
  import opened Results

  type Vector = seq<real>

  function Zeros(n: nat): (r: Vector)
    ensures |r| == n
    ensures forall i :: 0 <= i < n ==> r[i] == 0.0
  {
    seq(n, _ => 0.0)
  }

  /** `a + b` on tensors of equal length. */
  function Add(a: Vector, b: Vector): (r: Vector)
    requires |a| == |b|
    ensures |r| == |a|
    ensures forall i :: 0 <= i < |r| ==> r[i] == a[i] + b[i]
  {
    seq(|a|, i requires 0 <= i < |a| => a[i] + b[i])
  }

  /** `a - b` on tensors of equal length. */
  function Sub(a: Vector, b: Vector): (r: Vector)
    requires |a| == |b|
    ensures |r| == |a|
    ensures forall i :: 0 <= i < |r| ==> r[i] == a[i] - b[i]
  {
    seq(|a|, i requires 0 <= i < |a| => a[i] - b[i])
  }

  /** `c * a`. */
  function Scale(c: real, a: Vector): (r: Vector)
    ensures |r| == |a|
    ensures forall i :: 0 <= i < |r| ==> r[i] == c * a[i]
  {
    seq(|a|, i requires 0 <= i < |a| => c * a[i])
  }

  /** `c * a + d`, the shape of `2 * shape - 1` and `concentrations - 1`. */
  function Affine(c: real, a: Vector, d: real): (r: Vector)
    ensures |r| == |a|
    ensures forall i :: 0 <= i < |r| ==> r[i] == c * a[i] + d
  {
    seq(|a|, i requires 0 <= i < |a| => c * a[i] + d)
  }

  /** `a ** 2`. */
  function Square(a: Vector): (r: Vector)
    ensures |r| == |a|
    ensures forall i :: 0 <= i < |r| ==> r[i] == a[i] * a[i]
  {
    seq(|a|, i requires 0 <= i < |a| => a[i] * a[i])
  }

  /** Dividing a product by a non-zero factor cancels that factor. */
  lemma CancelFactor(s: real, a: real)
    requires s != 0.0
    ensures (s * a) / s == a
  {
  }

  /** `(s·a)·(s·b) / s = s·a·b` for non-zero `s`: the quadratic term the
      log-normalisers subtract undoes the one the constructors add. */
  lemma CancelQuadratic(s: real, a: real, b: real)
    requires s != 0.0
    ensures (s * a) * (s * b) / s == s * a * b
  {
    assert (s * a) * (s * b) == s * (s * a * b);
    CancelFactor(s, s * a * b);
  }

  /** Entry form of the quadratic cancellation: for `x = s·a` and `y = s·b`,
      `x·y / s = a·y = s·(a·b)`. */
  lemma CancelOuter(s: real, a: real, b: real, x: real, y: real)
    requires s != 0.0 && x == s * a && y == s * b
    ensures x * y / s == a * y
    ensures x * y / s == s * (a * b)
  {
    CancelQuadratic(s, a, b);
    assert a * (s * b) == s * a * b;
  }

  /** Entry form of the read-back: subtracting `x·y / s` from
      `s·(a·b) + c` leaves `c`. */
  lemma CancelResidual(s: real, a: real, b: real, c: real, h: real, x: real, y: real)
    requires s != 0.0 && h == s * (a * b) + c && x == s * a && y == s * b
    ensures h - x * y / s == c
  {
    CancelQuadratic(s, a, b);
    assert s * (a * b) == s * a * b;
  }

  /** `a @ b` on tensors of equal length. */
  function Dot(a: Vector, b: Vector): real
    requires |a| == |b|
    decreases |a|
  {
    if |a| == 0 then 0.0 else a[0] * b[0] + Dot(a[1..], b[1..])
  }

  /** The inner product is linear in its second argument. */
  lemma {:induction false} DotSub(g: Vector, a: Vector, b: Vector)
    requires |g| == |a| == |b|
    ensures Dot(g, Sub(a, b)) == Dot(g, a) - Dot(g, b)
    decreases |g|
  {
    if |g| > 0 {
      assert Sub(a, b)[1..] == Sub(a[1..], b[1..]);
      DotSub(g[1..], a[1..], b[1..]);
    }
  }

  /** The element-wise operators the constructors and the divergence use. */
  datatype BinOp = Plus | Minus | Times

  function Apply(op: BinOp, x: real, y: real): real
  {
    match op
    case Plus => x + y
    case Minus => x - y
    case Times => x * y
  }

  /** Two one-dimensional sizes broadcast when they agree or one of them is 1. */
  predicate Broadcastable(m: nat, n: nat)
  {
    m == n || m == 1 || n == 1
  }

  function BroadcastLength(m: nat, n: nat): nat
  {
    if m == 1 then n else m
  }

  /** Entry `i` of a broadcast operand: a length-1 tensor repeats its one entry. */
  function At(a: Vector, i: nat): real
    requires |a| == 1 || i < |a|
  {
    if |a| == 1 then a[0] else a[i]
  }

  /** `a op b` under torch's broadcasting rule for one-dimensional tensors;
      `None` where torch raises a size error. */
  function Broadcast(op: BinOp, a: Vector, b: Vector): (r: Option<Vector>)
    ensures r.Some? <==> Broadcastable(|a|, |b|)
    ensures r.Some? ==> |r.value| == BroadcastLength(|a|, |b|)
    ensures r.Some? ==> forall i :: 0 <= i < |r.value| ==>
      (|a| == 1 || i < |a|) && (|b| == 1 || i < |b|) && r.value[i] == Apply(op, At(a, i), At(b, i))
  {
    if !Broadcastable(|a|, |b|) then None
    else
      var n := BroadcastLength(|a|, |b|);
      Some(seq(n, i requires 0 <= i < n => Apply(op, At(a, i), At(b, i))))
  }

  /** Operands of equal length combine entry by entry. */
  lemma BroadcastSameLength(op: BinOp, a: Vector, b: Vector)
    requires |a| == |b|
    ensures Broadcast(op, a, b).Some?
    ensures |Broadcast(op, a, b).value| == |a|
    ensures forall i :: 0 <= i < |a| ==> Broadcast(op, a, b).value[i] == Apply(op, a[i], b[i])
  {
  }

  /** Python's normalisation of a slice bound against a sequence of length
      `n`: a negative bound counts from the end, and the result is clamped
      into `[0, n]`. */
  function Bound(i: int, n: nat): (k: nat)
    ensures k <= n
    ensures 0 <= i <= n ==> k == i
    ensures n < i ==> k == n
    ensures -(n as int) <= i < 0 ==> k == n + i
    ensures i < -(n as int) ==> k == 0
  {
    if i < 0 then (if n + i < 0 then 0 else n + i)
    else if i > n then n
    else i
  }

  /** `s[lo:hi]` with Python's semantics: bounds are normalised by `Bound`
      and an empty range yields the empty sequence rather than an error. */
  function Slice<T>(s: seq<T>, lo: int, hi: int): (r: seq<T>)
  {
    var a := Bound(lo, |s|);
    var b := Bound(hi, |s|);
    if a <= b then s[a..b] else []
  }

  lemma SliceLength<T>(s: seq<T>, lo: nat, hi: nat)
    requires lo <= hi
    ensures |Slice(s, lo, hi)| == (if hi <= |s| then hi - lo else if lo <= |s| then |s| - lo else 0)
  {
  }

  /** Adjacent slices with non-negative bounds concatenate to the slice they span. */
  lemma SliceAdjacent<T>(s: seq<T>, a: nat, b: nat, c: nat)
    requires a <= b <= c
    ensures Slice(s, a, b) + Slice(s, b, c) == Slice(s, a, c)
  {
    var x, y, z := Bound(a, |s|), Bound(b, |s|), Bound(c, |s|);
    assert x <= y <= z;
    assert s[x..y] + s[y..z] == s[x..z];
  }

  /** Cutting at three ascending non-negative offsets and reading the rest
      to the end partitions a sequence into four pieces. */
  lemma FourPieces<T>(s: seq<T>, x: nat, y: nat, z: nat)
    requires x <= y <= z
    ensures Slice(s, 0, x) + Slice(s, x, y) + Slice(s, y, z) + Slice(s, z, |s|) == s
  {
    var end := if z <= |s| then |s| else z;
    SliceToEnd(s, z, end);
    SliceAdjacent(s, 0, x, y);
    SliceAdjacent(s, 0, y, z);
    SliceAdjacent(s, 0, z, end);
    SliceToEnd(s, 0, end);
  }

  /** Slicing `a + b + c + d` at the running lengths gives back each part. */
  lemma SlicesInOrder<T>(a: seq<T>, b: seq<T>, c: seq<T>, d: seq<T>)
    ensures var s := a + b + c + d;
      && Slice(s, 0, |a|) == a
      && Slice(s, |a|, |a| + |b|) == b
      && Slice(s, |a| + |b|, |a| + |b| + |c|) == c
      && Slice(s, |a| + |b| + |c|, |s|) == d
  {
    var s := a + b + c + d;
    assert s[..|a|] == a;
    assert s[|a|..|a| + |b|] == b;
    assert s[|a| + |b|..|a| + |b| + |c|] == c;
    assert s[|a| + |b| + |c|..] == d;
  }

  /** Slicing `a + b + c + [x]` at `|a|`, `-(|c| + 1)` and `-1` gives back
      `a`, `b`, `c`, and `x` is the last entry. */
  lemma SlicesFromBothEnds<T>(a: seq<T>, b: seq<T>, c: seq<T>, x: T)
    ensures var s := a + b + c + [x];
      && Slice(s, 0, |a|) == a
      && Slice(s, |a|, -(|c| + 1)) == b
      && Slice(s, -(|c| + 1), -1) == c
      && s[|s| - 1] == x
  {
    var s := a + b + c + [x];
    var n := |s|;
    assert Bound(-(|c| + 1), n) == |a| + |b|;
    assert Bound(-1, n) == n - 1;
    assert s[..|a|] == a;
    assert s[|a|..|a| + |b|] == b;
    assert s[|a| + |b|..n - 1] == c;
  }

  /** Slicing `a + b + [x, y]` at `|a|` and `-2` gives back `a`, `b` and
      the final pair. */
  lemma SlicesBeforeLastTwo<T>(a: seq<T>, b: seq<T>, x: T, y: T)
    ensures var s := a + b + [x, y];
      && Slice(s, 0, |a|) == a
      && Slice(s, |a|, -2) == b
      && Slice(s, -2, |s|) == [x, y]
  {
    var s := a + b + [x, y];
    var n := |s|;
    assert Bound(-2, n) == n - 2;
    assert s[..|a|] == a;
    assert s[|a|..n - 2] == b;
    assert s[n - 2..] == [x, y];
  }

  /** Every upper bound at or past the end reads to the end. */
  lemma SliceToEnd<T>(s: seq<T>, lo: int, hi: int)
    requires hi >= |s|
    ensures Slice(s, lo, hi) == Slice(s, lo, |s|)
  {
  }
}
